=== FILE: README.md ===
# MediCare storefront commerce core, modelled in Dafny

This project models the client-side commerce core of the MediCare online
pharmacy, a Next.js storefront whose state lives in Redux slices:

- the cart, and the totals every cart reducer recomputes;
- the address book with its selected address;
- the UI slice with the checkout step and the order on display;
- the orders slice with its two async thunks;
- the address-form schema and the pure formatters;
- the catalogue queries of the product service;
- the server route that creates a Cashfree payment session;
- the checkout page: the client half of the payment, the place-order
  handler, the address and payment steps, and the address form handlers;
- the order report page's statistics, and the filter function it applies
  to the rows (its filter controls are not rendered).

Every reducer is a pure function on an immutable state. JavaScript
behaviour that the code relies on is written out explicitly. `Text.OrElse`
models `value || fallback` on strings, where `""` is falsy.
`NumberText.ParseInt` models `parseInt(s, 10)` and `NumberText.IntToString`
models `String(n)`, both for safe integers (magnitude below 2^53). `Seqs.Take` and `Seqs.SliceTo` model `substring` and
`slice`, including negative bounds.

The place-order handler is modelled as the ordered list of its effects.
These are the session request, the order submission, the dispatched
actions, the toasts and the navigation. The outcome of every awaited call
is a parameter:

- the create-order route's reply;
- what the Cashfree drop-in checkout did;
- what the order service returned or threw.

`Checkout.Apply` then plays the dispatched actions against the cart,
address and UI stores.

Modules, one per source file, plus helpers:

| module | file |
|---|---|
| `Wrappers`, `Seqs`, `Text`, `NumberText` | `Option`, sequence and string helpers, the JavaScript built-ins used |
| `Types` | `types/index.ts` |
| `CartSlice`, `UseCart` | `features/cart/cartSlice.ts`, `hooks/useCart.ts` |
| `AddressSlice`, `UseAddress` | `features/address/addressSlice.ts`, `hooks/useAddress.ts` |
| `UiSlice`, `OrdersSlice` | `features/ui/uiSlice.ts`, `features/orders/ordersSlice.ts` |
| `Validators`, `Formatters` | `utils/validators.ts`, `utils/formatters.ts` |
| `ProductService` | `services/productService.ts` |
| `CashfreeRoute` | `app/api/cashfree/create-order/route.ts` |
| `Checkout` | `app/checkout/page.tsx` |
| `AdminPage` | `app/admin/412206/page.tsx` |

Behaviour of the code that the model makes explicit:

- **Stock is not checked.** `addToCart` never consults the product's stock,
  and no quantity is clamped (`CartSlice.AddToCart`).
- **The state list is not enforced.** The address schema only requires a
  non-empty state. The list of Indian states feeds the drop-down only
  (`Validators.StateListNotEnforced`).
- **A name of blanks passes the form.** The name pattern `[a-zA-Z\s]+`
  admits `"   "`, and such a name reaches the gateway as an empty
  customer id (`Validators.BlankNameAccepted`,
  `Checkout.BlankNameGivesEmptyCustomerId`).
- **The gateway is always charged 1 rupee.** The page asks for an amount
  of 1, whatever the cart total (`Checkout.GatewayAmount`,
  `Checkout.PageAmountAccepted`).
- **Negative amounts pass the route.** The route's amount check only
  rejects a falsy or non-number amount (`CashfreeRoute.Post`).
- **A paid order the server rejects gets the generic toast.** No distinct
  "paid but not recorded" failure exists: the customer sees the same error
  toast as a rejected cash-on-delivery order
  (`Checkout.PaidButRejectedLooksLikeCashFailure`).
- **Only the online card is rendered.** The payment step renders just the
  `UPI` card, so the handler is only ever called with `Card`
  (`Checkout.PayButtonAlwaysCard`).
- **The report page's filters are not reachable.** The search field and
  the payment select are commented out, and they hold the only calls that
  change `search` and `paymentFilter`. The page therefore always filters
  with `''` and `All`, which lists every row
  (`AdminPage.DefaultFilterShowsAll`). The other filter lemmas describe the
  filter function, not a state the page reaches.
- **The address book does not enforce one default.** `setDefaultAddress`
  with an unknown id leaves no default, and `addAddress` keeps the new
  address's own flag (`AddressSlice.DefaultExactlyFor`).
- **Stale selections are kept.** `selectAddress` stores any id, and the
  address step's guard only checks that the id is truthy
  (`AddressSlice.StaleSelectionSurvivesAdd`,
  `Checkout.StaleSelectionPassesGuard`).
- **The orders slice is not wired into the store.** `redux/store.ts`
  registers no `orders` reducer. The orders slice and the report page's
  rows are therefore modelled on their own, and the checkout model's
  stores are only the cart, address and UI slices.

## Model

| member | source | states |
|---|---|---|
| CartSlice.AddToCart | features/cart/cartSlice.ts:23-35 | an existing line gains one unit and every other line is unchanged; otherwise a line of one is appended; the totals match the lines |
| CartSlice.RemoveFromCart | features/cart/cartSlice.ts:36-43 | the result holds exactly the lines for other products, and the totals match |
| CartSlice.UpdateQuantity | features/cart/cartSlice.ts:44-63 | an absent product leaves the lines alone; a quantity of zero or less removes the product's lines; a positive one replaces the first line's quantity only |
| CartSlice.ClearCart | features/cart/cartSlice.ts:64-68 | no lines, and both totals are zero |
| CartSlice.AddToCartTotals | features/cart/cartSlice.ts:4-11 | adding moves the item total by one and the amount by the unit price of the line that grew |
| CartSlice.UpdateQuantityTotals | features/cart/cartSlice.ts:44-63 | a positive update moves both totals by the quantity difference |
| CartSlice.SumWithoutLine | features/cart/cartSlice.ts:4-11 | with one line per product, dropping a product's lines subtracts exactly that line from any sum over the lines |
| CartSlice.RemoveFromCartTotals | features/cart/cartSlice.ts:36-43 | removal subtracts exactly the removed line's quantity and line total |
| CartSlice.RemoveFromCartKeepsOrder | features/cart/cartSlice.ts:37-39 | the surviving lines keep their order, each line as often as before, and no line for the removed product remains |
| CartSlice.RemoveAbsentIsNoOp | features/cart/cartSlice.ts:37-39 | removing a product that is not in the cart changes no line |
| CartSlice.UpdateToZeroIsRemove | features/cart/cartSlice.ts:51-56 | an update to zero or less equals `removeFromCart`, whether or not the product is present |
| CartSlice.ReduceKeepsValid | features/cart/cartSlice.ts:22-68 | every reducer keeps one line per product and every quantity at least 1 |
| CartSlice.FilterKeepsValid | features/cart/cartSlice.ts:37-39 | filtering a valid cart leaves a valid cart |
| CartSlice.AddKeepsValid | features/cart/cartSlice.ts:23-31 | `addToCart` keeps the cart invariant |
| CartSlice.UpdateKeepsValid | features/cart/cartSlice.ts:48-59 | `updateQuantity` keeps the cart invariant |
| UseCart.QuantityInCart | hooks/useCart.ts:43-46 | 0 when the product is absent, otherwise the quantity of its first line |
| UseCart.HandleAddToCart | hooks/useCart.ts:19-24 | the handler's store change is `addToCart(product)` |
| UseCart.HandleRemoveFromCart | hooks/useCart.ts:26-29 | the handler's store change is `removeFromCart(id)`; the name only feeds the toast |
| UseCart.HandleUpdateQuantity | hooks/useCart.ts:31-33 | the handler forwards id and quantity unchanged |
| UseCart.HandleClearCart | hooks/useCart.ts:35-37 | the handler's store change is `clearCart()` |
| UseCart.IsInCartIffFound | hooks/useCart.ts:39-41 | `isInCart` holds iff `findIndex` finds a line |
| UseCart.QuantityPositiveIffInCart | hooks/useCart.ts:39-46 | under the cart invariant, the quantity is positive iff the product is in the cart |
| UseCart.QuantityAfterAdd | hooks/useCart.ts:43-46 | adding raises the product's quantity by exactly one |
| UseCart.NotInCartAfterRemove | hooks/useCart.ts:39-46 | after removal the product is absent with quantity 0 |
| UseCart.QuantityAfterUpdate | hooks/useCart.ts:43-46 | after an update the quantity is the new one, or the product is gone when that is not positive |
| UseCart.EmptyAfterClear | hooks/useCart.ts:39-46 | a cleared cart holds no product |
| AddressSlice.AddAddress | features/address/addressSlice.ts:15-27 | the entry is appended under the new id; it becomes the default in an empty book; the new id is selected only when nothing truthy was selected |
| AddressSlice.EditAddress | features/address/addressSlice.ts:28-35 | the first address with the id is replaced and nothing else changes; an unknown id changes nothing |
| AddressSlice.DeleteAddress | features/address/addressSlice.ts:36-44 | exactly the addresses with other ids remain; a deleted selection moves to the first remaining address, or to none |
| AddressSlice.SelectAddress | features/address/addressSlice.ts:45-47 | the id is stored as given and the addresses are unchanged |
| AddressSlice.SetDefaultAddress | features/address/addressSlice.ts:48-52 | each address's flag becomes "its id is the given id"; nothing else changes |
| AddressSlice.AddToEmptyBook | features/address/addressSlice.ts:15-27 | the first address saved is the default and is selected |
| AddressSlice.StaleSelectionSurvivesAdd | features/address/addressSlice.ts:24-26 | a selected id naming no address survives adding the first address |
| AddressSlice.DeleteKeepsOrder | features/address/addressSlice.ts:37-39 | the surviving addresses keep their order, each as often as before, and none with the deleted id remains |
| AddressSlice.DefaultExactlyFor | features/address/addressSlice.ts:48-52 | after `setDefaultAddress` an address is the default iff it has the id; with an unknown id there is none |
| AddressSlice.ReduceKeepsSelectionValid | features/address/addressSlice.ts:14-53 | every action but `selectAddress` of an unknown id keeps the selection pointing at a saved address |
| UseAddress.SelectedAddress | hooks/useAddress.ts:19-21 | the first address with the selected id, and none iff nothing is selected or no address has the id |
| UseAddress.HandleAddAddress | hooks/useAddress.ts:23-25 | the handler's store change is `addAddress` |
| UseAddress.HandleEditAddress | hooks/useAddress.ts:27-29 | the handler's store change is `editAddress` |
| UseAddress.HandleDeleteAddress | hooks/useAddress.ts:31-33 | the handler's store change is `deleteAddress` |
| UseAddress.HandleSelectAddress | hooks/useAddress.ts:35-37 | the handler's store change is `selectAddress` |
| UseAddress.HandleSetDefault | hooks/useAddress.ts:39-41 | the handler's store change is `setDefaultAddress` |
| UseAddress.SelectedAfterDeletingSelected | hooks/useAddress.ts:19-21 | deleting the selected address makes the first remaining address the selected one |
| UseAddress.SelectedAfterDeletingOther | hooks/useAddress.ts:19-21 | deleting any other address leaves the selected address as it was |
| UseAddress.FirstMatchSurvivesFilter | hooks/useAddress.ts:19-21 | filtering out another id keeps the first match of the selected id |
| UseAddress.SelectedAfterFirstAdd | hooks/useAddress.ts:19-21 | the first address saved into an empty book is the selected address |
| UiSlice.SetLoading | features/ui/uiSlice.ts:14-16 | only the loading flag changes |
| UiSlice.SetCheckoutStep | features/ui/uiSlice.ts:17-19 | only the step changes |
| UiSlice.SetCurrentOrder | features/ui/uiSlice.ts:20-22 | only the current order changes |
| UiSlice.ResetCheckout | features/ui/uiSlice.ts:23-26 | back to the cart step with no order; the loading flag is kept |
| UiSlice.ResetIsInitialButLoading | features/ui/uiSlice.ts:4-26 | a reset state is the initial state except for the loading flag, and a second reset changes nothing |
| UiSlice.LoadingCommutes | features/ui/uiSlice.ts:13-27 | setting the loading flag commutes with every action |
| OrdersSlice.RejectionMessage | features/orders/ordersSlice.ts:18-22 | a thrown `Error`'s message, otherwise the fallback |
| OrdersSlice.PlaceOrderThunk | features/orders/ordersSlice.ts:11-23 | fulfilled with the response iff the service returned; otherwise rejected with the message |
| OrdersSlice.FetchOrdersThunk | features/orders/ordersSlice.ts:25-37 | fulfilled with the rows iff the service returned; otherwise rejected with the message |
| OrdersSlice.PlacePending | features/orders/ordersSlice.ts:79-82 | placing starts, the placement error is cleared, and the report fields are unchanged |
| OrdersSlice.PlaceFulfilled | features/orders/ordersSlice.ts:83-87 | placing stops and both ids are recorded; the old error and the report are kept |
| OrdersSlice.PlaceRejected | features/orders/ordersSlice.ts:88-91 | placing stops and the error is the payload, or `Unknown error` |
| OrdersSlice.FetchPending | features/orders/ordersSlice.ts:95-98 | fetching starts, the report error is cleared, and placement is unchanged |
| OrdersSlice.FetchFulfilled | features/orders/ordersSlice.ts:99-102 | fetching stops and the rows replace the report |
| OrdersSlice.FetchRejected | features/orders/ordersSlice.ts:103-106 | fetching stops, the old rows stay, and the error is the payload or `Unknown error` |
| OrdersSlice.ClearOrderState | features/orders/ordersSlice.ts:69-74 | the placement fields return to their initial values; the report is kept |
| OrdersSlice.PlaceAndFetchCommute | features/orders/ordersSlice.ts:65-108 | a placement action and a report action commute |
| OrdersSlice.PlaceOrderRun | features/orders/ordersSlice.ts:11-23 | a pending-then-settled `placeOrder` ends with the ids and no error, or with the thrown message or the fallback |
| OrdersSlice.FetchOrdersRun | features/orders/ordersSlice.ts:25-37 | a pending-then-settled `fetchOrders` ends with the new rows, or with the old rows and the message |
| Validators.ParseAddressType | utils/validators.ts:27 | a missing type defaults to Home; a given one is accepted iff it is Home, Work or Other |
| Validators.FailingFields | utils/validators.ts:3-28 | a field is reported iff it breaks its rule |
| Validators.Validate | utils/validators.ts:3-28 | the form is accepted iff every field passes, and then yields its values with the parsed type; otherwise exactly the failing fields are reported |
| Validators.NameWithDigitRejected | utils/validators.ts:4-8 | every name with a digit at any position fails, "John3" among them |
| Validators.PhoneLeadingFiveRejected | utils/validators.ts:9-11 | every mobile number whose first character is 0 to 5 fails; 5123456789 fails and 9123456789 passes |
| Validators.PincodeLeadingZeroRejected | utils/validators.ts:24-26 | every PIN code starting with 0 fails; 012345 fails and 110001 passes |
| Validators.StateListNotEnforced | utils/validators.ts:21-23 | a state outside the list of Indian states passes |
| Validators.BlankNameAccepted | utils/validators.ts:4-8 | a name of three spaces passes |
| Validators.MissingTypeDefaultsToHome | utils/validators.ts:27 | a form without a type that passes otherwise is accepted with type Home |
| Formatters.CalculateDelivery | utils/formatters.ts:76-78 | the fee is 0 iff the total is at least 499, and 40 otherwise |
| Formatters.TruncateText | utils/formatters.ts:54-57 | text within the limit is kept; longer text becomes a prefix of at most the limit, with the trailing whitespace dropped, followed by `...` |
| Formatters.DeliveryMonotone | utils/formatters.ts:76-78 | a larger total never pays a larger fee |
| Formatters.DeliveryBoundary | utils/formatters.ts:76-78 | 498 pays 40 and 499 pays nothing |
| Formatters.TruncateLength | utils/formatters.ts:54-57 | truncated text is at most three characters over the limit |
| ProductService.GetProducts | services/productService.ts:11-15 | an absent, empty or `All` category returns the whole list; a product is returned iff it is listed and (for a named category) in that category, in list order |
| ProductService.GetProductById | services/productService.ts:20-23 | the first product with the id, and none iff no product has it |
| ProductService.GetFeaturedProducts | services/productService.ts:28-31 | bestsellers only, in list order; the leading run of the bestsellers, of length six or all of them when fewer |
| ProductService.GetRelatedProducts | services/productService.ts:36-45 | other products of the category, in list order; the leading run of them, of length `min(limit, count)` (default 4), a negative limit dropping that many from the end |
| ProductService.SearchProducts | services/productService.ts:50-59 | exactly the products whose name, brand or some tag contains the query, ignoring case, in list order |
| ProductService.CategoryCounts | services/productService.ts:14 | a named category keeps each of its products as often as the list holds it, and no other product |
| ProductService.SearchCounts | services/productService.ts:50-59 | the search keeps each matching product as often as the list holds it, and no other product |
| ProductService.EmptySearchKeepsAll | services/productService.ts:50-59 | the empty query returns the whole list |
| ProductService.SearchIgnoresCase | services/productService.ts:52-58 | queries that lower-case alike give the same results |
| ProductService.EarlyBestsellerIsFeatured | services/productService.ts:28-31 | every bestseller with fewer than six bestsellers before it is featured |
| ProductService.EarlyRelatedIsListed | services/productService.ts:36-45 | every related product ranked within the result's length is in it |
| ProductService.FindByIdInCategory | services/productService.ts:11-23 | looking a product up by id among its category's products finds what the lookup in the whole list finds |
| CashfreeRoute.SanitizedCustomerId | app/api/cashfree/create-order/route.ts:29 | the first 50 letters and digits of the given id, or of `cust` plus the time stamp: a prefix of the id with everything outside `[a-zA-Z0-9]` dropped, of length 50 or all of it when shorter |
| Text.KeepAlnumContents | app/api/cashfree/create-order/route.ts:29 | dropping the non-alphanumerics keeps the input's order and every letter and digit as often as it occurs |
| CashfreeRoute.BuildOrder | app/api/cashfree/create-order/route.ts:17-40 | for a customer id that is a string or falsy: the order id from the stamp, the amount in INR, the customer defaults, and for an https app URL exactly the return and notify URLs under that app URL (none otherwise) |
| CashfreeRoute.Answer | app/api/cashfree/create-order/route.ts:53-78 | a session body (status 200, ids copied) iff the gateway answered ok with a truthy session id; a network failure or unreadable reply answers 500 with the default error; a non-ok reply passes its status and message (or the default); an ok reply without a session answers 502 with its message or the no-session error |
| CashfreeRoute.Post | app/api/cashfree/create-order/route.ts:6-86 | an unreadable body answers 500; an invalid amount answers 400 and calls no gateway; a truthy customer id that is not a string throws at `replace` and answers 500 without calling the gateway; any other request with a valid amount sends exactly the built order and answers the gateway's reply |
| CashfreeRoute.SuccessNeedsSession | app/api/cashfree/create-order/route.ts:53-78 | the route answers 200 iff it returns a payment session |
| Checkout.OpenCashfreeCheckout | app/checkout/page.tsx:64-110 | it resolves iff the route answered ok with a truthy session id and the checkout completed; otherwise it throws the fetch failure, the route's error or "Could not create…", the parse error, the body's error or the no-session message, what the widget threw, or the widget's message or "Payment was not completed." |
| Checkout.AsSeenByPage | app/checkout/page.tsx:79-92 | the page reads the route's status and JSON body |
| Checkout.PageCustomerId | app/checkout/page.tsx:75 | a non-empty name gives a non-empty id |
| Checkout.ProductId | app/checkout/page.tsx:760 | never 0: the parsed id when it is a non-zero number, and 1 for text that does not parse or parses to 0 |
| Checkout.ItemRequest | app/checkout/page.tsx:759-763 | the product id, quantity and price of the cart line |
| Checkout.OrderRequest | app/checkout/page.tsx:750-764 | the address fields, the delivery charge for the cart total, the method, and one entry per cart line |
| Checkout.CaughtToast | app/checkout/page.tsx:792-801 | a cancellation gives the info toast; any other error toasts its message; a non-error toasts the default |
| Checkout.PlacedOrder | app/checkout/page.tsx:769-780 | the server's id in decimal, the cart lines and totals, the address, and a paid, placed status |
| Checkout.OrderPlacedText | app/checkout/page.tsx:784 | the toast text embeds the server's order id in decimal between the fixed prefix and suffix |
| Checkout.AfterSubmission | app/checkout/page.tsx:768-791 | a fulfilled order records the order, then clears the cart, then shows the success step, toasts the server's id and navigates last; a rejection gives one error toast with the payload or the default; never a submission or session request |
| Checkout.DispatchesOnlyWhenFulfilled | app/checkout/page.tsx:768-791 | the steps after the submission dispatch to a store iff the server accepted the order |
| Checkout.SessionRequest | app/checkout/page.tsx:737-744 | at most one request; none iff the method is cash on delivery; any request is for the gateway amount with the page's customer id and the address's phone |
| Checkout.PaymentFailure | app/checkout/page.tsx:737-747 | nothing is thrown iff the method is cash on delivery or the route answered ok with a truthy session and the checkout completed; what is thrown is what the gateway step throws |
| Checkout.Submission | app/checkout/page.tsx:745-791 | the order is submitted exactly once, right after the payment toast when paying online, and no session is requested |
| Checkout.AfterPayment | app/checkout/page.tsx:735-801 | the order is submitted iff the payment did not fail; a failure leaves only the caught toast; otherwise the payment toast (online), the submission, then the steps of the settled submission |
| Checkout.AfterPaymentSubmitsAtMostOnce | app/checkout/page.tsx:735-801 | the steps after the session request submit the order at most once |
| Checkout.SubmissionPrefixQuiet | app/checkout/page.tsx:745-766 | the steps up to and including the submission dispatch nothing |
| Checkout.ApplyEffect | app/checkout/page.tsx:781-783 | only dispatches change the stores, and none touches the address book |
| Checkout.ProceedFromAddress | app/checkout/page.tsx:498-504 | a truthy selection moves to the payment step and changes nothing else; otherwise an error toast and no change |
| Checkout.GuardMatchesSelectedAddress | app/checkout/page.tsx:498-504 | on a book whose selection names a saved address, the guard passes only when the handler will find an address, and always when one is selected under a non-empty id |
| Checkout.SelectCard | app/checkout/page.tsx:543-574 | the selected value is one of the rendered cards |
| Checkout.PressPay | app/checkout/page.tsx:529-541 | nothing while processing; otherwise the step becomes processing with its selection kept and the handler gets `COD` iff that card is selected |
| Checkout.FinishPayment | app/checkout/page.tsx:699-701 | once the handler settles the step stops processing and keeps its selection |
| Checkout.PressPayOncePerPayment | app/checkout/page.tsx:690-702 | a second press during a payment does nothing; after the payment settles, a press calls the handler again with the same method |
| Checkout.AddressOf | app/checkout/page.tsx:316-328 | every field of the form under the given id, not marked default |
| Checkout.SubmitNewAddress | app/checkout/page.tsx:316-320 | a rejected form changes nothing; a valid one is added |
| Checkout.SubmitEditedAddress | app/checkout/page.tsx:322-328 | without an address being edited, or with a rejected form, nothing changes; otherwise the form's fields replace the address's, keeping its id and default flag |
| Checkout.SubmitKeepsSelectionValid | app/checkout/page.tsx:316-328 | saving either form keeps a selection that names a saved address valid |
| Checkout.FirstSubmittedAddressSelected | app/checkout/page.tsx:316-320 | the first address saved into an empty book is selected, made the default, with the form's values |
| Checkout.NoAddressNoEffects | app/checkout/page.tsx:731 | without a selected address the handler does nothing |
| Checkout.CashOnDeliverySkipsGateway | app/checkout/page.tsx:737 | cash on delivery requests no session, and the gateway's behaviour cannot change its effects |
| Checkout.GatewayFailureSubmitsNothing | app/checkout/page.tsx:792-801 | a failed or cancelled payment submits no order, dispatches nothing and leaves every store unchanged |
| Checkout.CancelledPaymentIsInfo | app/checkout/page.tsx:730-802 | a drop-in checkout that fails with the message "Payment cancelled by user" gives, after the session request, only the "Payment cancelled." info toast, and no submission |
| Checkout.AtMostOneSubmission | app/checkout/page.tsx:730-802 | the order is submitted at most once, and when paying online only after a session was requested |
| Checkout.PlaceOrderOutcome | app/checkout/page.tsx:730-802 | when the order goes through the cart is emptied, the order recorded and the success step shown; in every other case no store changes |
| Checkout.ApplyAfterSubmission | app/checkout/page.tsx:768-791 | the store change of the settled submission |
| Checkout.PaidButRejectedLooksLikeCashFailure | app/checkout/page.tsx:786-791 | after a completed payment, a rejection gives the same toast as for a cash order |
| Checkout.ProductIdOfNumber | app/checkout/page.tsx:760 | a non-zero number's text gives that number (a safe integer in JavaScript); `0` gives 1 |
| Checkout.ProductIdOfSlug | app/checkout/page.tsx:760 | an id starting with a letter gives 1 |
| Checkout.OrderIdReadsBack | app/checkout/page.tsx:770 | the recorded order id parses back to the server's number (a safe integer in JavaScript) |
| Checkout.RouteErrorsReachPage | app/checkout/page.tsx:79-90 | every error the route answers reaches the page as an `Error` with the route's message |
| Checkout.PageAmountAccepted | app/checkout/page.tsx:738-744 | the page's request passes the route's amount check, and the gateway is asked for the amount 1 |
| Checkout.CustomerIdOfValidName | app/checkout/page.tsx:75 | for an accepted name, the gateway's customer id is the name without whitespace, lower-cased |
| Checkout.BlankNameGivesEmptyCustomerId | app/checkout/page.tsx:75 | a blank name passes the form and yields an empty customer id |
| Checkout.StaleSelectionPassesGuard | app/checkout/page.tsx:498-504 | a selected id with no address passes the guard, after which the handler does nothing |
| Checkout.PayButtonAlwaysCard | app/checkout/page.tsx:543-558 | with only the rendered cards selectable, pressing pay never places a cash order |
| AdminPage.UniqueOrders | app/admin/412206/page.tsx:115 | at most one per row, at least one for a non-empty report, and counting every row's order id |
| AdminPage.UniqueCustomers | app/admin/412206/page.tsx:116 | at most one per row and at least one for a non-empty report |
| AdminPage.Filtered | app/admin/412206/page.tsx:121-130 | exactly the rows that pass both the search and the payment filter, in order |
| AdminPage.FilteredCounts | app/admin/412206/page.tsx:121-130 | every passing row is kept as often as the report lists it, and no other row |
| AdminPage.DefaultFilterShowsAll | app/admin/412206/page.tsx:107-108 | the initial search and filter, the only ones the page reaches, show every row |
| AdminPage.PaymentFilterExact | app/admin/412206/page.tsx:128 | of the filter function, which the page only applies with `All`: with an empty search, a row passes a specific payment filter iff it was paid that way |
| AdminPage.SearchByOrderNumber | app/admin/412206/page.tsx:127 | of the filter function, which the page only applies with `''`: searching for an order's number finds its rows |
| AdminPage.TotalsAppend | app/admin/412206/page.tsx:117-118 | revenue and item totals add up over concatenated reports |
| AdminPage.FilteredRevenueBound | app/admin/412206/page.tsx:117 | with non-negative bills, the filtered rows' revenue lies between 0 and the total revenue |
| NumberText.ParseIntOfIntToString | app/checkout/page.tsx:770 | `parseInt(String(n), 10)` is `n`; this is JavaScript's behaviour for safe integers only (see Left out) |
| Text.KeepAlnumCollapse | app/api/cashfree/create-order/route.ts:29 | replacing whitespace runs by `_` is invisible once non-alphanumerics are dropped |

## Left out

- Floating point is not modelled. Prices, amounts and quantities are
  integers, and the route's `Math.round(amount * 100) / 100` is the
  identity on them.
- `formatPrice`, `formatDate` and `getExpectedDelivery` are not modelled:
  they depend on `Intl` and on locale date formatting.
- `calculateDiscount` is not modelled, because it rounds a floating-point
  ratio.
- `generateOrderId` is not modelled because it is random. Its use of
  `Math.random` has a counterpart in `addressSlice`'s `generateId`, which
  becomes the `newId` parameter.
- `Date.now()` and `new Date().toISOString()` become the parameters
  `orderStamp`, `customerStamp` and `createdAt`.
- Toasts, navigation, `fetch` and the Cashfree SDK are modelled only as
  effects and as parameter outcomes on the checkout page. The cart hook's
  toasts (hooks/useCart.ts:21-23 and 28) are not modelled at all: the
  `UseCart` handlers return only the dispatched action. `window.Cashfree`'s initialisation
  and its `mode` setting are not modelled.
- The route's `console` logging and request headers are not modelled.
  Neither are JSON fields of non-string type in the gateway's reply.
- CashfreeRoute.Post: of the request's fields, only `amount` and
  `customerId` may be of any type. A non-string `customerPhone` or
  `customerEmail` (truthy) would be passed through to the gateway as is;
  the model's `Option<string>` cannot express that.
- NumberText.IntToString: matches JavaScript's `String(n)` only for safe
  integers, `-(2^53 - 1) <= n <= 2^53 - 1`. Order and product ids are
  doubles in JavaScript: beyond 2^53 they are not exact, and from 1e21 on
  `String` writes exponent form (`"1e+21"`, which `parseInt` reads as 1).
  NumberText.ParseIntOfIntToString, Checkout.OrderIdReadsBack and
  Checkout.ProductIdOfNumber therefore describe JavaScript for safe ids
  only.
- NumberText.ParseInt: reads any run of digits exactly, where JavaScript
  rounds a value of 2^53 or more to the nearest double.
- `lib/apiClient.ts` and `services/orderService.ts` are not part of this
  model. The order service's outcome is a parameter, and its error
  normalisation is folded into `Thrown`.
- The checkout page's redirect to `/cart` when the cart is empty is not
  modelled. Neither are its step indicator, its rendering, or the
  presentational components.
- The Razorpay route, redux-persist and the store wiring are not modelled.
  In particular, the report page reads `s.orders`, which `redux/store.ts`
  never registers.
- Text.ToLower: maps ASCII capitals only, where JavaScript's `toLowerCase`
  covers all of Unicode. String lengths count characters, not UTF-16 code
  units.
- Checkout.PageAmountAccepted: states only that the request reaches the
  gateway with amount 1. Whether the gateway then answers 200 depends on
  its reply and is left open.
- AdminPage.UniqueOrders: states bounds and membership of the distinct
  order ids, not the exact count of the set. The same holds for
  AdminPage.UniqueCustomers.
- Checkout.PageCustomerId: states only that a non-empty name gives a
  non-empty id. What the id contains once it reaches the gateway is stated
  by Checkout.CustomerIdOfValidName.
- Checkout.AsSeenByPage: states only that a status and a JSON body arrive.
  What the page does with them is stated by Checkout.RouteErrorsReachPage.
- Checkout.HandlePlaceOrder: carries no contract of its own. Its
  behaviour is stated by the lemmas about it (Checkout.NoAddressNoEffects
  through Checkout.PlaceOrderOutcome).

=== FILE: address_slice.dfy ===
/**
 * The address book (features/address/addressSlice.ts): saved addresses in
 * insertion order and the id of the selected one.
 */
module AddressSlice {
  import opened Wrappers
  import opened Types
  import Seqs

  datatype AddressState = AddressState(addresses: seq<Address>, selectedId: Option<string>)

  const InitialAddressBook := AddressState([], None)

  /** Truthiness of `selectedAddressId`: `null` and `""` are both falsy. */
  predicate HasSelection(selected: Option<string>) {
    selected.Some? && selected.value != ""
  }

  function HasId(id: string): Address -> bool {
    (a: Address) => a.id == id
  }

  function HasOtherId(id: string): Address -> bool {
    (a: Address) => a.id != id
  }

  /** `findIndex` by id, with "not found" reported as `|addresses|`. */
  function AddressIndex(addresses: seq<Address>, id: string): (i: nat)
    ensures i <= |addresses|
    ensures i < |addresses| ==> addresses[i].id == id
    ensures forall j :: 0 <= j < i ==> addresses[j].id != id
  {
    Seqs.IndexOf(addresses, HasId(id))
  }

  predicate HasAddress(addresses: seq<Address>, id: string) {
    exists j :: 0 <= j < |addresses| && addresses[j].id == id
  }

  /** `addAddress`: the entry, under the id `newId` drawn by the caller,
      goes at the end. The first address of an empty book is made the
      default; the new id is selected only when nothing (truthy) was
      selected. */
  function AddAddress(s: AddressState, entry: Address, newId: string): (r: AddressState)
    ensures |r.addresses| == |s.addresses| + 1
    ensures r.addresses[..|s.addresses|] == s.addresses
    ensures r.addresses[|s.addresses|]
      == entry.(id := newId, isDefault := if |s.addresses| == 0 then true else entry.isDefault)
    ensures r.selectedId == if HasSelection(s.selectedId) then s.selectedId else Some(newId)
  {
    var added := entry.(id := newId);
    var added := if |s.addresses| == 0 then added.(isDefault := true) else added;
    var selected := if HasSelection(s.selectedId) then s.selectedId else Some(newId);
    AddressState(s.addresses + [added], selected)
  }

  /** `editAddress`: the first address with the same id is replaced; an
      unknown id changes nothing. */
  function EditAddress(s: AddressState, a: Address): (r: AddressState)
    ensures r.selectedId == s.selectedId
    ensures var i := AddressIndex(s.addresses, a.id);
      if i == |s.addresses| then r == s
      else
        && |r.addresses| == |s.addresses|
        && r.addresses[i] == a
        && (forall j :: 0 <= j < |s.addresses| && j != i ==> r.addresses[j] == s.addresses[j])
  {
    var i := AddressIndex(s.addresses, a.id);
    if i < |s.addresses| then s.(addresses := s.addresses[i := a]) else s
  }

  /** `deleteAddress`: every address with the id goes. If that id was the
      selection, the first remaining address is selected, or none. */
  function DeleteAddress(s: AddressState, id: string): (r: AddressState)
    ensures forall j :: 0 <= j < |r.addresses| ==> r.addresses[j].id != id && r.addresses[j] in s.addresses
    ensures forall j :: 0 <= j < |s.addresses| && s.addresses[j].id != id ==> s.addresses[j] in r.addresses
    ensures s.selectedId == Some(id) ==>
      r.selectedId == if |r.addresses| > 0 then Some(r.addresses[0].id) else None
    ensures s.selectedId != Some(id) ==> r.selectedId == s.selectedId
  {
    var remaining := Seqs.Filter(s.addresses, HasOtherId(id));
    var selected :=
      if s.selectedId == Some(id) then (if |remaining| > 0 then Some(remaining[0].id) else None)
      else s.selectedId;
    AddressState(remaining, selected)
  }

  /** `selectAddress`: the id is stored as given, known or not. */
  function SelectAddress(s: AddressState, id: string): (r: AddressState)
    ensures r.selectedId == Some(id)
    ensures r.addresses == s.addresses
  {
    s.(selectedId := Some(id))
  }

  /** `setDefaultAddress`: every address's flag becomes "its id is `id`". */
  function SetDefaultAddress(s: AddressState, id: string): (r: AddressState)
    ensures r.selectedId == s.selectedId
    ensures |r.addresses| == |s.addresses|
    ensures forall j :: 0 <= j < |s.addresses| ==>
      r.addresses[j] == s.addresses[j].(isDefault := s.addresses[j].id == id)
  {
    var flagged := seq(|s.addresses|, j requires 0 <= j < |s.addresses| =>
      s.addresses[j].(isDefault := s.addresses[j].id == id));
    s.(addresses := flagged)
  }

  datatype AddressAction =
    | Add(entry: Address, newId: string)
    | Edit(address: Address)
    | Delete(id: string)
    | Select(id: string)
    | SetDefault(id: string)

  function Reduce(s: AddressState, a: AddressAction): AddressState {
    match a
    case Add(entry, newId) => AddAddress(s, entry, newId)
    case Edit(address) => EditAddress(s, address)
    case Delete(id) => DeleteAddress(s, id)
    case Select(id) => SelectAddress(s, id)
    case SetDefault(id) => SetDefaultAddress(s, id)
  }

  /** The selection, when there is one, names a saved address. The user
      interface only ever selects ids it lists, so this holds of every
      state the checkout page can reach. */
  predicate SelectionValid(s: AddressState) {
    s.selectedId.None? || HasAddress(s.addresses, s.selectedId.value)
  }

  // ---------------------------------------------------------------------
  // Lemmas
  // ---------------------------------------------------------------------

  /** The first address saved into an empty book with no selection becomes
      the default and is selected. */
  lemma AddToEmptyBook(s: AddressState, entry: Address, newId: string)
    requires |s.addresses| == 0 && SelectionValid(s)
    ensures var r := AddAddress(s, entry, newId);
      && r.addresses == [entry.(id := newId, isDefault := true)]
      && r.selectedId == Some(newId)
  {
    var r := AddAddress(s, entry, newId);
    assert r.addresses == r.addresses[..0] + [r.addresses[0]];
  }

  /** `selectAddress` does not check the id, and `addAddress` keeps any
      truthy selection: a stale selection survives adding the first
      address, which is then the default but not selected. */
  lemma StaleSelectionSurvivesAdd(entry: Address)
    ensures var r := AddAddress(SelectAddress(InitialAddressBook, "gone"), entry, "a1");
      && r.selectedId == Some("gone")
      && r.addresses[0].isDefault
      && !HasAddress(r.addresses, "gone")
  {
    var r := AddAddress(SelectAddress(InitialAddressBook, "gone"), entry, "a1");
    assert |r.addresses| == 1;
    assert r.addresses[0].id == "a1";
  }

  /** `deleteAddress` keeps the surviving addresses in order, each as
      often as before. */
  lemma DeleteKeepsOrder(s: AddressState, id: string)
    ensures Seqs.IsSubsequence(DeleteAddress(s, id).addresses, s.addresses)
    ensures forall a :: multiset(DeleteAddress(s, id).addresses)[a] == if a.id != id then multiset(s.addresses)[a] else 0
  {
    Seqs.FilterIsSubsequence(s.addresses, HasOtherId(id));
    Seqs.FilterMultiset(s.addresses, HasOtherId(id));
  }

  /** After `setDefaultAddress(id)` an address is the default exactly when
      its id is `id`; for an unknown id no address is the default. */
  lemma DefaultExactlyFor(s: AddressState, id: string)
    ensures var r := SetDefaultAddress(s, id);
      && (forall j :: 0 <= j < |r.addresses| ==> (r.addresses[j].isDefault <==> r.addresses[j].id == id))
      && (!HasAddress(s.addresses, id) ==> forall j :: 0 <= j < |r.addresses| ==> !r.addresses[j].isDefault)
  {
  }

  /** Only `selectAddress` can make the selection name a missing address:
      every other action keeps a valid selection valid, and
      `selectAddress` does so exactly when the id is saved. */
  lemma ReduceKeepsSelectionValid(s: AddressState, a: AddressAction)
    requires SelectionValid(s)
    requires a.Select? ==> HasAddress(s.addresses, a.id)
    ensures SelectionValid(Reduce(s, a))
  {
    match a
    case Add(entry, newId) =>
      var r := AddAddress(s, entry, newId);
      if r.selectedId == Some(newId) {
        assert r.addresses[|s.addresses|].id == newId;
      } else {
        var k :| 0 <= k < |s.addresses| && s.addresses[k].id == s.selectedId.value;
        assert r.addresses[k] == s.addresses[k];
      }
    case Edit(address) =>
      var r := EditAddress(s, address);
      if s.selectedId.Some? {
        var k :| 0 <= k < |s.addresses| && s.addresses[k].id == s.selectedId.value;
        assert r.addresses[k].id == s.addresses[k].id;
      }
    case Delete(id) =>
      var r := DeleteAddress(s, id);
      if s.selectedId.Some? && s.selectedId != Some(id) {
        var k :| 0 <= k < |s.addresses| && s.addresses[k].id == s.selectedId.value;
        var m :| 0 <= m < |r.addresses| && r.addresses[m] == s.addresses[k];
      }
    case Select(id) =>
    case SetDefault(id) =>
      var r := SetDefaultAddress(s, id);
      if s.selectedId.Some? {
        var k :| 0 <= k < |s.addresses| && s.addresses[k].id == s.selectedId.value;
        assert r.addresses[k].id == s.addresses[k].id;
      }
  }
}

=== FILE: admin.dfy ===
/**
 * The order report page (app/admin/412206/page.tsx): statistics derived
 * from the fetched report rows and the search and payment filter on them.
 * The rows are a parameter; they come from the orders store. The page's
 * search field and payment select are commented out, so its filter state
 * never leaves `''` and `All`; the filter is modelled as the function the
 * page applies.
 */
module AdminPage {
  import opened Types
  import opened Text
  import Seqs
  import NumberText

  const AllPayments := "All"

  function OrderIds(rows: seq<OrderDetailRow>): (ids: seq<int>)
    ensures |ids| == |rows|
    ensures forall i :: 0 <= i < |rows| ==> ids[i] == rows[i].orderId
  {
    seq(|rows|, i requires 0 <= i < |rows| => rows[i].orderId)
  }

  function ContactNumbers(rows: seq<OrderDetailRow>): (contacts: seq<string>)
    ensures |contacts| == |rows|
    ensures forall i :: 0 <= i < |rows| ==> contacts[i] == rows[i].contactNumber
  {
    seq(|rows|, i requires 0 <= i < |rows| => rows[i].contactNumber)
  }

  /** `uniqueOrders`: the number of distinct order ids among the rows; a
      report row is one product line, so an order spans several rows. */
  function UniqueOrders(rows: seq<OrderDetailRow>): (n: nat)
    ensures n <= |rows|
    ensures |rows| > 0 ==> n >= 1
    ensures forall i :: 0 <= i < |rows| ==> rows[i].orderId in Seqs.Elements(OrderIds(rows))
  {
    Seqs.ElementsBound(OrderIds(rows));
    assert forall i :: 0 <= i < |rows| ==> OrderIds(rows)[i] in OrderIds(rows);
    |Seqs.Elements(OrderIds(rows))|
  }

  /** `uniqueCustomers`: the number of distinct contact numbers. */
  function UniqueCustomers(rows: seq<OrderDetailRow>): (n: nat)
    ensures n <= |rows|
    ensures |rows| > 0 ==> n >= 1
  {
    Seqs.ElementsBound(ContactNumbers(rows));
    |Seqs.Elements(ContactNumbers(rows))|
  }

  function TotalBill(row: OrderDetailRow): int {
    row.totalBill
  }

  function RowQuantity(row: OrderDetailRow): int {
    row.quantity
  }

  /** `totalRevenue`: Σ `total_bill` over the rows. */
  function TotalRevenue(rows: seq<OrderDetailRow>): int {
    Seqs.SumOf(rows, TotalBill)
  }

  /** `totalItems`: Σ `quantity` over the rows. */
  function TotalItems(rows: seq<OrderDetailRow>): int {
    Seqs.SumOf(rows, RowQuantity)
  }

  /** The search half of the row filter: an empty search, the lower-cased
      customer or product name containing the lower-cased search, or the
      contact number or decimal order id containing the search as typed. */
  predicate MatchesSearch(row: OrderDetailRow, search: string) {
    search == ""
    || Contains(ToLower(row.customerName), ToLower(search))
    || Contains(row.contactNumber, search)
    || Contains(ToLower(row.productName), ToLower(search))
    || Contains(NumberText.IntToString(row.orderId), search)
  }

  predicate MatchesPayment(row: OrderDetailRow, paymentFilter: string) {
    paymentFilter == AllPayments || row.paymentMethod == paymentFilter
  }

  function RowFilter(search: string, paymentFilter: string): OrderDetailRow -> bool {
    (row: OrderDetailRow) => MatchesSearch(row, search) && MatchesPayment(row, paymentFilter)
  }

  /** `filtered`: the rows passing both halves of the filter, in order. */
  function Filtered(rows: seq<OrderDetailRow>, search: string, paymentFilter: string): (r: seq<OrderDetailRow>)
    ensures forall i :: 0 <= i < |r| ==> MatchesSearch(r[i], search) && MatchesPayment(r[i], paymentFilter)
    ensures forall i :: 0 <= i < |rows| && MatchesSearch(rows[i], search) && MatchesPayment(rows[i], paymentFilter) ==> rows[i] in r
    ensures Seqs.IsSubsequence(r, rows)
  {
    Seqs.FilterIsSubsequence(rows, RowFilter(search, paymentFilter));
    Seqs.Filter(rows, RowFilter(search, paymentFilter))
  }

  // ---------------------------------------------------------------------
  // Lemmas
  // ---------------------------------------------------------------------

  /** The initial search `''` and payment filter `All` show every row.
      With the filter controls not rendered, this is the only filter state
      the page reaches, so it always lists the whole report. */
  lemma DefaultFilterShowsAll(rows: seq<OrderDetailRow>)
    ensures Filtered(rows, "", AllPayments) == rows
  {
    Seqs.FilterKeepsAll(rows, RowFilter("", AllPayments));
  }

  /** Of the filter function: a row passes a specific payment filter iff
      it was paid that way (with the empty search). */
  lemma PaymentFilterExact(rows: seq<OrderDetailRow>, paymentFilter: string, row: OrderDetailRow)
    requires paymentFilter != AllPayments
    ensures row in Filtered(rows, "", paymentFilter) <==> row in rows && row.paymentMethod == paymentFilter
  {
    var r := Filtered(rows, "", paymentFilter);
    if row in rows && row.paymentMethod == paymentFilter {
      var i :| 0 <= i < |rows| && rows[i] == row;
    }
    if row in r {
      var i :| 0 <= i < |r| && r[i] == row;
    }
  }

  /** Of the filter function: searching for an order's number finds its
      rows. */
  lemma SearchByOrderNumber(rows: seq<OrderDetailRow>, i: nat)
    requires i < |rows|
    ensures rows[i] in Filtered(rows, NumberText.IntToString(rows[i].orderId), AllPayments)
  {
    var s := NumberText.IntToString(rows[i].orderId);
    assert s[..|s|] == s;
    assert Contains(s, s);
  }

  /** The filter keeps every passing row as often as the report lists it,
      and no other row. */
  lemma FilteredCounts(rows: seq<OrderDetailRow>, search: string, paymentFilter: string)
    ensures forall row ::
      multiset(Filtered(rows, search, paymentFilter))[row]
      == if MatchesSearch(row, search) && MatchesPayment(row, paymentFilter) then multiset(rows)[row] else 0
  {
    Seqs.FilterMultiset(rows, RowFilter(search, paymentFilter));
  }

  /** Revenue and item totals add up over concatenated reports. */
  lemma TotalsAppend(a: seq<OrderDetailRow>, b: seq<OrderDetailRow>)
    ensures TotalRevenue(a + b) == TotalRevenue(a) + TotalRevenue(b)
    ensures TotalItems(a + b) == TotalItems(a) + TotalItems(b)
  {
    Seqs.SumOfAppend(a, b, TotalBill);
    Seqs.SumOfAppend(a, b, RowQuantity);
  }

  /** With non-negative bills, the revenue of the filtered rows (shown at
      the foot of the table) never exceeds the total revenue. */
  lemma {:induction false} FilteredRevenueBound(rows: seq<OrderDetailRow>, keep: OrderDetailRow -> bool)
    requires forall i :: 0 <= i < |rows| ==> rows[i].totalBill >= 0
    ensures 0 <= TotalRevenue(Seqs.Filter(rows, keep)) <= TotalRevenue(rows)
  {
    if |rows| > 0 {
      FilteredRevenueBound(rows[1..], keep);
    }
  }
}

=== FILE: cart_slice.dfy ===
/**
 * The cart store (features/cart/cartSlice.ts): a list of lines, one per
 * product, and two totals that every reducer recomputes from the lines.
 */
module CartSlice {
  import opened Types
  import Seqs

  datatype CartState = CartState(items: seq<CartItem>, totalAmount: int, totalItems: int)

  const InitialCart := CartState([], 0, 0)

  function LineTotal(item: CartItem): int {
    item.product.price * item.quantity
  }

  function LineQuantity(item: CartItem): int {
    item.quantity
  }

  /** Σ price × quantity over the lines. */
  function Amount(items: seq<CartItem>): int {
    Seqs.SumOf(items, LineTotal)
  }

  /** Σ quantity over the lines. */
  function ItemCount(items: seq<CartItem>): int {
    Seqs.SumOf(items, LineQuantity)
  }

  /** The stored totals agree with the lines. */
  predicate TotalsMatch(s: CartState) {
    s.totalAmount == Amount(s.items) && s.totalItems == ItemCount(s.items)
  }

  function IsLine(id: string): CartItem -> bool {
    (item: CartItem) => item.product.id == id
  }

  function IsOtherLine(id: string): CartItem -> bool {
    (item: CartItem) => item.product.id != id
  }

  /** Position of the first line for product `id`, or `|items|`. */
  function LineIndex(items: seq<CartItem>, id: string): (i: nat)
    ensures i <= |items|
    ensures i < |items| ==> items[i].product.id == id
    ensures forall j :: 0 <= j < i ==> items[j].product.id != id
  {
    Seqs.IndexOf(items, IsLine(id))
  }

  predicate UniqueIds(items: seq<CartItem>) {
    forall i, j :: 0 <= i < j < |items| ==> items[i].product.id != items[j].product.id
  }

  predicate PositiveQuantities(items: seq<CartItem>) {
    forall i :: 0 <= i < |items| ==> items[i].quantity >= 1
  }

  /** The cart invariant: one line per product, every quantity at least 1. */
  predicate Valid(items: seq<CartItem>) {
    UniqueIds(items) && PositiveQuantities(items)
  }

  /** `calculateTotals(items)` stored next to the lines. */
  function WithTotals(items: seq<CartItem>): CartState {
    CartState(items, Amount(items), ItemCount(items))
  }

  /** `addToCart`: one more unit of an existing line, or a new line of one.
      The product's stock is never consulted. */
  function AddToCart(s: CartState, p: Product): (r: CartState)
    ensures TotalsMatch(r)
    ensures var i := LineIndex(s.items, p.id);
      if i < |s.items| then
        && |r.items| == |s.items|
        && r.items[i] == CartItem(s.items[i].product, s.items[i].quantity + 1)
        && (forall j :: 0 <= j < |s.items| && j != i ==> r.items[j] == s.items[j])
      else
        r.items == s.items + [CartItem(p, 1)]
  {
    var i := LineIndex(s.items, p.id);
    if i < |s.items| then
      WithTotals(s.items[i := s.items[i].(quantity := s.items[i].quantity + 1)])
    else
      WithTotals(s.items + [CartItem(p, 1)])
  }

  /** `removeFromCart`: every line for `id` goes, the others stay. */
  function RemoveFromCart(s: CartState, id: string): (r: CartState)
    ensures TotalsMatch(r)
    ensures forall j :: 0 <= j < |r.items| ==> r.items[j].product.id != id && r.items[j] in s.items
    ensures forall j :: 0 <= j < |s.items| && s.items[j].product.id != id ==> s.items[j] in r.items
  {
    WithTotals(Seqs.Filter(s.items, IsOtherLine(id)))
  }

  /** `updateQuantity`: for a product in the cart, a quantity of zero or
      less removes its lines and a positive one replaces the first line's
      quantity; for a product not in the cart nothing changes but the
      totals are recomputed. */
  function UpdateQuantity(s: CartState, id: string, quantity: int): (r: CartState)
    ensures TotalsMatch(r)
    ensures var i := LineIndex(s.items, id);
      if i == |s.items| then
        r.items == s.items
      else if quantity <= 0 then
        r.items == RemoveFromCart(s, id).items
      else
        && |r.items| == |s.items|
        && r.items[i] == CartItem(s.items[i].product, quantity)
        && (forall j :: 0 <= j < |s.items| && j != i ==> r.items[j] == s.items[j])
  {
    var i := LineIndex(s.items, id);
    if i == |s.items| then WithTotals(s.items)
    else if quantity <= 0 then WithTotals(Seqs.Filter(s.items, IsOtherLine(id)))
    else WithTotals(s.items[i := s.items[i].(quantity := quantity)])
  }

  /** `clearCart`: no lines and both totals zero. */
  function ClearCart(s: CartState): (r: CartState)
    ensures r.items == [] && r.totalAmount == 0 && r.totalItems == 0
    ensures TotalsMatch(r)
  {
    InitialCart
  }

  datatype CartAction =
    | AddItem(product: Product)
    | RemoveItem(productId: string)
    | SetQuantity(productId: string, quantity: int)
    | Clear

  /** The slice's reducer: one case per action creator. */
  function Reduce(s: CartState, a: CartAction): CartState {
    match a
    case AddItem(p) => AddToCart(s, p)
    case RemoveItem(id) => RemoveFromCart(s, id)
    case SetQuantity(id, q) => UpdateQuantity(s, id, q)
    case Clear => ClearCart(s)
  }

  // ---------------------------------------------------------------------
  // Lemmas
  // ---------------------------------------------------------------------

  lemma LineTotalStep(price: int, q: int)
    ensures price * (q + 1) == price * q + price
  {
  }

  /** `addToCart` adds one unit, priced at the stored line's price when the
      product is already in the cart. */
  lemma AddToCartTotals(s: CartState, p: Product)
    requires TotalsMatch(s)
    ensures var r := AddToCart(s, p);
      var i := LineIndex(s.items, p.id);
      && r.totalItems == s.totalItems + 1
      && r.totalAmount == s.totalAmount + (if i < |s.items| then s.items[i].product.price else p.price)
  {
    var i := LineIndex(s.items, p.id);
    if i < |s.items| {
      var line := s.items[i];
      var bumped := line.(quantity := line.quantity + 1);
      Seqs.SumOfUpdate(s.items, i, bumped, LineTotal);
      Seqs.SumOfUpdate(s.items, i, bumped, LineQuantity);
      LineTotalStep(line.product.price, line.quantity);
    } else {
      var added := CartItem(p, 1);
      Seqs.SumOfAppend(s.items, [added], LineTotal);
      Seqs.SumOfAppend(s.items, [added], LineQuantity);
      assert Seqs.SumOf([added], LineTotal) == p.price;
      assert Seqs.SumOf([added], LineQuantity) == 1;
    }
  }

  /** `updateQuantity` with a positive quantity on a present line moves the
      totals by the difference. */
  lemma UpdateQuantityTotals(s: CartState, id: string, quantity: int)
    requires TotalsMatch(s)
    requires LineIndex(s.items, id) < |s.items| && quantity > 0
    ensures var r := UpdateQuantity(s, id, quantity);
      var line := s.items[LineIndex(s.items, id)];
      && r.totalItems == s.totalItems - line.quantity + quantity
      && r.totalAmount == s.totalAmount - line.product.price * line.quantity + line.product.price * quantity
  {
    var i := LineIndex(s.items, id);
    var line := s.items[i];
    Seqs.SumOfUpdate(s.items, i, line.(quantity := quantity), LineTotal);
    Seqs.SumOfUpdate(s.items, i, line.(quantity := quantity), LineQuantity);
  }

  /** With one line per product, dropping the lines of `id` subtracts
      exactly that line's contribution from any sum over the lines. */
  lemma {:induction false} SumWithoutLine(items: seq<CartItem>, id: string, f: CartItem -> int)
    requires UniqueIds(items)
    ensures var i := LineIndex(items, id);
      Seqs.SumOf(items, f)
        == Seqs.SumOf(Seqs.Filter(items, IsOtherLine(id)), f) + (if i < |items| then f(items[i]) else 0)
  {
    if |items| > 0 {
      var h, t := items[0], items[1..];
      assert UniqueIds(t);
      if h.product.id == id {
        assert forall k :: 0 <= k < |t| ==> IsOtherLine(id)(t[k]) by {
          forall k | 0 <= k < |t| ensures t[k].product.id != id {
            assert t[k] == items[k + 1];
          }
        }
        Seqs.FilterKeepsAll(t, IsOtherLine(id));
      } else {
        SumWithoutLine(t, id, f);
        var rest := Seqs.Filter(t, IsOtherLine(id));
        assert Seqs.Filter(items, IsOtherLine(id)) == [h] + rest;
        assert ([h] + rest)[1..] == rest;
      }
    }
  }

  /** `removeFromCart` subtracts exactly the removed line from both totals
      (nothing, when the product is absent). */
  lemma RemoveFromCartTotals(s: CartState, id: string)
    requires TotalsMatch(s) && UniqueIds(s.items)
    ensures var r := RemoveFromCart(s, id);
      var i := LineIndex(s.items, id);
      && r.totalItems == s.totalItems - (if i < |s.items| then s.items[i].quantity else 0)
      && r.totalAmount == s.totalAmount - (if i < |s.items| then LineTotal(s.items[i]) else 0)
  {
    SumWithoutLine(s.items, id, LineTotal);
    SumWithoutLine(s.items, id, LineQuantity);
  }

  /** `removeFromCart` keeps the surviving lines in their original order,
      each as often as before. */
  lemma RemoveFromCartKeepsOrder(s: CartState, id: string)
    ensures Seqs.IsSubsequence(RemoveFromCart(s, id).items, s.items)
    ensures forall l :: multiset(RemoveFromCart(s, id).items)[l] == if l.product.id != id then multiset(s.items)[l] else 0
  {
    Seqs.FilterIsSubsequence(s.items, IsOtherLine(id));
    Seqs.FilterMultiset(s.items, IsOtherLine(id));
  }

  /** Removing a product that is not in the cart changes no line. */
  lemma RemoveAbsentIsNoOp(s: CartState, id: string)
    requires LineIndex(s.items, id) == |s.items|
    ensures RemoveFromCart(s, id).items == s.items
  {
    Seqs.FilterKeepsAll(s.items, IsOtherLine(id));
  }

  /** `updateQuantity(id, q)` with `q <= 0` leaves the same lines as
      `removeFromCart(id)`, whether or not the product is in the cart. */
  lemma UpdateToZeroIsRemove(s: CartState, id: string, quantity: int)
    requires quantity <= 0
    ensures UpdateQuantity(s, id, quantity) == RemoveFromCart(s, id)
  {
    if LineIndex(s.items, id) == |s.items| {
      RemoveAbsentIsNoOp(s, id);
    }
  }

  /** Filtering a valid cart leaves a valid cart. */
  lemma {:induction false} FilterKeepsValid(items: seq<CartItem>, keep: CartItem -> bool)
    requires Valid(items)
    ensures Valid(Seqs.Filter(items, keep))
  {
    if |items| > 0 {
      var h, t := items[0], items[1..];
      assert Valid(t);
      FilterKeepsValid(t, keep);
      var rest := Seqs.Filter(t, keep);
      if keep(h) {
        assert Seqs.Filter(items, keep) == [h] + rest;
        forall k | 0 <= k < |rest| ensures rest[k].product.id != h.product.id {
          var m :| 0 <= m < |t| && t[m] == rest[k];
          assert t[m] == items[m + 1];
        }
        ConsKeepsValid(h, rest);
      } else {
        assert Seqs.Filter(items, keep) == rest;
      }
    }
  }

  /** A new first line with its own product and a positive quantity keeps
      a valid cart valid. */
  lemma ConsKeepsValid(h: CartItem, rest: seq<CartItem>)
    requires Valid(rest) && h.quantity >= 1
    requires forall k :: 0 <= k < |rest| ==> rest[k].product.id != h.product.id
    ensures Valid([h] + rest)
  {
    var r := [h] + rest;
    forall i, j | 0 <= i < j < |r| ensures r[i].product.id != r[j].product.id {
      assert r[j] == rest[j - 1];
      if i > 0 {
        assert r[i] == rest[i - 1];
      }
    }
  }

  /** Every reducer keeps the cart invariant: one line per product and
      every quantity at least 1. */
  lemma ReduceKeepsValid(s: CartState, a: CartAction)
    requires Valid(s.items)
    ensures Valid(Reduce(s, a).items)
  {
    match a
    case AddItem(p) => AddKeepsValid(s, p);
    case RemoveItem(id) => FilterKeepsValid(s.items, IsOtherLine(id));
    case SetQuantity(id, q) => UpdateKeepsValid(s, id, q);
    case Clear =>
  }

  lemma AddKeepsValid(s: CartState, p: Product)
    requires Valid(s.items)
    ensures Valid(AddToCart(s, p).items)
  {
    var i := LineIndex(s.items, p.id);
    var r := AddToCart(s, p).items;
    if i == |s.items| {
      forall j, k | 0 <= j < k < |r| ensures r[j].product.id != r[k].product.id {
        if k == |s.items| {
          assert r[j] == s.items[j];
        }
      }
    } else {
      assert forall j :: 0 <= j < |r| ==> r[j].product.id == s.items[j].product.id;
    }
  }

  lemma UpdateKeepsValid(s: CartState, id: string, quantity: int)
    requires Valid(s.items)
    ensures Valid(UpdateQuantity(s, id, quantity).items)
  {
    var i := LineIndex(s.items, id);
    if i < |s.items| {
      if quantity <= 0 {
        FilterKeepsValid(s.items, IsOtherLine(id));
      } else {
        var r := UpdateQuantity(s, id, quantity).items;
        assert forall j :: 0 <= j < |r| ==> r[j].product.id == s.items[j].product.id;
      }
    }
  }
}

=== FILE: cashfree_route.dfy ===
/**
 * The server route that opens a Cashfree payment session
 * (app/api/cashfree/create-order/route.ts): it validates the amount,
 * builds the gateway order with a sanitised customer id, forwards it, and
 * maps the gateway's reply to its own JSON response. The clock, the
 * environment's application URL and the gateway's reply are parameters.
 */
module CashfreeRoute {
  import opened Wrappers
  import opened Text
  import Seqs
  import NumberText

  /** The `amount` field of the request body: a number (whole rupees),
      `NaN`, or a value of another type (absent, a string, ...). */
  datatype AmountField = AmountNumber(value: int) | AmountNaN | AmountNotNumber

  /** The `customerId` field: a string or a falsy value (`IdText`, with
      `None` for absent, `null`, `0` or `false`), or a truthy value of
      another type (a number, `true`, an object), which has no `replace`. */
  datatype CustomerIdField = IdText(text: Option<string>) | IdNotString

  datatype RouteRequest = RouteRequest(
    amount: AmountField,
    customerId: CustomerIdField,
    customerPhone: Option<string>,
    customerEmail: Option<string>)

  /** The request body as `req.json()` sees it. */
  datatype RequestBody = Malformed | Json(request: RouteRequest)

  datatype CustomerDetails = CustomerDetails(
    customerId: string,
    customerPhone: string,
    customerEmail: string,
    customerName: string)

  datatype OrderMeta = OrderMeta(returnUrl: string, notifyUrl: string)

  /** The order sent to the gateway. */
  datatype GatewayOrder = GatewayOrder(
    orderId: string,
    orderAmount: int,
    orderCurrency: string,
    customer: CustomerDetails,
    meta: Option<OrderMeta>)

  /** The fields of the gateway's JSON reply that the route reads. */
  datatype GatewayData = GatewayData(
    message: Option<string>,
    orderId: Option<string>,
    paymentSessionId: Option<string>)

  /** The gateway call: the request threw, or a status came back with a
      body that is JSON (`Some`) or not (`None`, so reading it throws). */
  datatype GatewayReply = NetworkError | Replied(status: int, body: Option<GatewayData>)

  datatype RouteBody =
    | ErrorBody(error: string)
    | SessionBody(orderId: Option<string>, paymentSessionId: string)

  datatype RouteResponse = RouteResponse(status: int, body: RouteBody)

  /** What one call of the route does: the order it sends to the gateway
      (if it gets that far) and its response. */
  datatype RouteRun = RouteRun(sent: Option<GatewayOrder>, response: RouteResponse)

  const InvalidAmountMessage := "Invalid amount"
  const CreateFailedMessage := "Failed to create Cashfree order"
  const NoSessionMessage := "Cashfree did not return a payment session"
  const MaxCustomerIdLength := 50
  const FallbackPhone := "9999999999"
  const FallbackEmail := "customer@medicare.in"
  const FallbackName := "Customer"
  const HttpsScheme := "https://"

  /** `response.ok`. */
  predicate IsOk(status: int) {
    200 <= status <= 299
  }

  /** `!amount || typeof amount !== 'number'`: only a non-zero number
      passes; a negative amount does. */
  predicate ValidAmount(a: AmountField) {
    a.AmountNumber? && a.value != 0
  }

  /** `customer_id`: the given id, or `cust` and the time stamp, with every
      character outside `[a-zA-Z0-9]` dropped and cut to 50 characters. */
  function SanitizedCustomerId(customerId: Option<string>, stamp: nat): (r: string)
    ensures |r| <= MaxCustomerIdLength
    ensures forall i :: 0 <= i < |r| ==> IsAsciiAlnum(r[i])
    ensures Seqs.IsSubsequence(r, OrElse(customerId, "cust" + NumberText.NatToString(stamp)))
    ensures var kept := KeepAlnum(OrElse(customerId, "cust" + NumberText.NatToString(stamp)));
      |r| == (if |kept| < MaxCustomerIdLength then |kept| else MaxCustomerIdLength) && r == kept[..|r|]
  {
    var raw := OrElse(customerId, "cust" + NumberText.NatToString(stamp));
    var kept := KeepAlnum(raw);
    KeepAlnumContents(raw);
    Seqs.PrefixIsSubsequence(kept, MaxCustomerIdLength);
    Seqs.SubsequenceTransitive(Seqs.Take(kept, MaxCustomerIdLength), kept, raw);
    Seqs.Take(kept, MaxCustomerIdLength)
  }

  /** The gateway order for a request with a valid amount; building it
      throws for a customer id that is not a string. */
  function BuildOrder(request: RouteRequest, appUrl: Option<string>, orderStamp: nat, customerStamp: nat): (r: GatewayOrder)
    requires ValidAmount(request.amount) && request.customerId.IdText?
    ensures r.orderId == "order_" + NumberText.NatToString(orderStamp)
    ensures r.orderAmount == request.amount.value && r.orderCurrency == "INR"
    ensures r.customer.customerId == SanitizedCustomerId(request.customerId.text, customerStamp)
    ensures r.customer.customerPhone == OrElse(request.customerPhone, FallbackPhone)
    ensures r.customer.customerEmail == OrElse(request.customerEmail, FallbackEmail)
    ensures r.customer.customerName == OrElse(request.customerId.text, FallbackName)
    ensures r.meta.Some? <==> StartsWith(OrElse(appUrl, ""), HttpsScheme)
    ensures r.meta.Some? ==> StartsWith(r.meta.value.returnUrl, HttpsScheme)
    ensures r.meta.Some? ==> EndsWith(r.meta.value.returnUrl, "/order-success?order_id={order_id}")
    ensures r.meta.Some? ==> EndsWith(r.meta.value.notifyUrl, "/api/cashfree/webhook")
    ensures r.meta.Some? ==>
      r.meta.value == OrderMeta(OrElse(appUrl, "") + "/order-success?order_id={order_id}",
                                OrElse(appUrl, "") + "/api/cashfree/webhook")
  {
    var base := OrElse(appUrl, "");
    var customer := CustomerDetails(
      SanitizedCustomerId(request.customerId.text, customerStamp),
      OrElse(request.customerPhone, FallbackPhone),
      OrElse(request.customerEmail, FallbackEmail),
      OrElse(request.customerId.text, FallbackName));
    var meta :=
      if StartsWith(base, HttpsScheme) then
        Some(OrderMeta(base + "/order-success?order_id={order_id}", base + "/api/cashfree/webhook"))
      else None;
    assert meta.Some? ==> (base + "/order-success?order_id={order_id}")[..|HttpsScheme|] == base[..|HttpsScheme|];
    GatewayOrder("order_" + NumberText.NatToString(orderStamp), request.amount.value, "INR", customer, meta)
  }

  /** The route's answer once the gateway has been called. */
  function Answer(reply: GatewayReply): (r: RouteResponse)
    ensures r.body.SessionBody? <==>
      (reply.Replied? && IsOk(reply.status) && reply.body.Some? && OrElse(reply.body.value.paymentSessionId, "") != "")
    ensures r.body.SessionBody? ==> r.status == 200 && r.body.orderId == reply.body.value.orderId
    ensures r.body.SessionBody? ==> Some(r.body.paymentSessionId) == reply.body.value.paymentSessionId
    ensures r.body.ErrorBody? ==> r.body.error != "" && !IsOk(r.status)
    ensures reply.NetworkError? || reply.body.None? ==> r == RouteResponse(500, ErrorBody(CreateFailedMessage))
    ensures reply.Replied? && reply.body.Some? && !IsOk(reply.status) ==>
      r == RouteResponse(reply.status, ErrorBody(OrElse(reply.body.value.message, CreateFailedMessage)))
    ensures reply.Replied? && reply.body.Some? && IsOk(reply.status) && OrElse(reply.body.value.paymentSessionId, "") == "" ==>
      r == RouteResponse(502, ErrorBody(OrElse(reply.body.value.message, NoSessionMessage)))
  {
    match reply
    case NetworkError => RouteResponse(500, ErrorBody(CreateFailedMessage))
    case Replied(status, body) =>
      if body.None? then RouteResponse(500, ErrorBody(CreateFailedMessage))
      else if !IsOk(status) then RouteResponse(status, ErrorBody(OrElse(body.value.message, CreateFailedMessage)))
      else if OrElse(body.value.paymentSessionId, "") == "" then
        RouteResponse(502, ErrorBody(OrElse(body.value.message, NoSessionMessage)))
      else RouteResponse(200, SessionBody(body.value.orderId, body.value.paymentSessionId.value))
  }

  /** `POST /api/cashfree/create-order`. */
  function Post(body: RequestBody, appUrl: Option<string>, orderStamp: nat, customerStamp: nat, reply: GatewayReply): (r: RouteRun)
    ensures body.Malformed? ==> r.sent.None? && r.response == RouteResponse(500, ErrorBody(CreateFailedMessage))
    ensures body.Json? && !ValidAmount(body.request.amount) ==>
      r.sent.None? && r.response == RouteResponse(400, ErrorBody(InvalidAmountMessage))
    ensures body.Json? && ValidAmount(body.request.amount) && body.request.customerId.IdNotString? ==>
      r.sent.None? && r.response == RouteResponse(500, ErrorBody(CreateFailedMessage))
    ensures r.sent.Some? <==> body.Json? && ValidAmount(body.request.amount) && body.request.customerId.IdText?
    ensures r.sent.Some? ==> r.sent.value.orderAmount == body.request.amount.value
    ensures body.Json? && ValidAmount(body.request.amount) && body.request.customerId.IdText? ==>
      r.sent == Some(BuildOrder(body.request, appUrl, orderStamp, customerStamp))
    ensures r.sent.Some? ==> r.response == Answer(reply)
  {
    match body
    case Malformed => RouteRun(None, RouteResponse(500, ErrorBody(CreateFailedMessage)))
    case Json(request) =>
      if !ValidAmount(request.amount) then RouteRun(None, RouteResponse(400, ErrorBody(InvalidAmountMessage)))
      else if request.customerId.IdNotString? then RouteRun(None, RouteResponse(500, ErrorBody(CreateFailedMessage)))
      else RouteRun(Some(BuildOrder(request, appUrl, orderStamp, customerStamp)), Answer(reply))
  }

  // ---------------------------------------------------------------------
  // Lemmas
  // ---------------------------------------------------------------------

  /** The route only answers 200 with a session id the gateway gave it. */
  lemma SuccessNeedsSession(body: RequestBody, appUrl: Option<string>, orderStamp: nat, customerStamp: nat, reply: GatewayReply)
    ensures var r := Post(body, appUrl, orderStamp, customerStamp, reply);
      r.response.status == 200 <==> r.response.body.SessionBody?
  {
  }
}

=== FILE: checkout.dfy ===
/**
 * The checkout page (app/checkout/page.tsx): the client half of the
 * Cashfree payment, the place-order handler, the address and payment
 * steps. The handler's observable behaviour is a list of effects (network
 * requests, dispatched actions, toasts, navigation); the outcome of every
 * awaited call and the clock are parameters.
 */
module Checkout {
  import opened Wrappers
  import opened Types
  import opened Text
  import NumberText
  import Seqs
  import Formatters
  import Validators
  import CartSlice
  import AddressSlice
  import UseAddress
  import UiSlice
  import OrdersSlice
  import CashfreeRoute

  // ---------------------------------------------------------------------
  // openCashfreeCheckout
  // ---------------------------------------------------------------------

  /** The body of the create-order response as the page reads it: a JSON
      object (its `error` and `payment_session_id` fields) or text that
      does not parse. */
  datatype ReplyBody = JsonObject(error: Option<string>, paymentSessionId: Option<string>) | NotJson(parseError: Thrown)

  /** The `fetch` of the create-order route: it threw, or a response came. */
  datatype SessionReply = FetchFailed(thrown: Thrown) | Answered(status: int, body: ReplyBody)

  /** How the drop-in checkout settled: `checkout()` threw, resolved without
      an `error`, or resolved with one (whose `message` may be empty). */
  datatype WidgetResult = WidgetThrew(thrown: Thrown) | WidgetCompleted | WidgetFailed(message: Option<string>)

  const CouldNotCreateMessage := "Could not create Cashfree order"
  const NoSessionMessage := "Cashfree did not return a payment session. Check server logs."
  const NotCompletedMessage := "Payment was not completed."

  /** The amount the page asks the gateway for, whatever the cart holds. */
  const GatewayAmount := 1

  /** The route answered ok with a JSON body holding a truthy session id,
      so the drop-in checkout is opened. */
  predicate OffersSession(reply: SessionReply) {
    reply.Answered? && CashfreeRoute.IsOk(reply.status) && reply.body.JsonObject?
    && OrElse(reply.body.paymentSessionId, "") != ""
  }

  /** `openCashfreeCheckout`: `None` when it resolves (payment completed),
      otherwise what it throws. */
  function OpenCashfreeCheckout(reply: SessionReply, widget: WidgetResult): (r: Option<Thrown>)
    ensures reply.FetchFailed? ==> r == Some(reply.thrown)
    ensures reply.Answered? && !CashfreeRoute.IsOk(reply.status) ==>
      r == Some(ErrorObject(OrElse(if reply.body.JsonObject? then reply.body.error else None, CouldNotCreateMessage)))
    ensures r.None? <==> OffersSession(reply) && widget.WidgetCompleted?
    ensures reply.Answered? && CashfreeRoute.IsOk(reply.status) && reply.body.NotJson? ==> r == Some(reply.body.parseError)
    ensures reply.Answered? && CashfreeRoute.IsOk(reply.status) && reply.body.JsonObject? && !OffersSession(reply) ==>
      r == Some(ErrorObject(OrElse(reply.body.error, NoSessionMessage)))
    ensures OffersSession(reply) && widget.WidgetThrew? ==> r == Some(widget.thrown)
    ensures OffersSession(reply) && widget.WidgetFailed? ==> r == Some(ErrorObject(OrElse(widget.message, NotCompletedMessage)))
    ensures r.Some? && r.value.ErrorObject? && !reply.FetchFailed? && !reply.body.NotJson? && !widget.WidgetThrew? ==>
      r.value.message != ""
  {
    match reply
    case FetchFailed(t) => Some(t)
    case Answered(status, body) =>
      if !CashfreeRoute.IsOk(status) then
        Some(ErrorObject(OrElse(if body.JsonObject? then body.error else None, CouldNotCreateMessage)))
      else
        match body
        case NotJson(t) => Some(t)
        case JsonObject(error, sessionId) =>
          if OrElse(sessionId, "") == "" then Some(ErrorObject(OrElse(error, NoSessionMessage)))
          else
            match widget
            case WidgetThrew(t) => Some(t)
            case WidgetCompleted => None
            case WidgetFailed(message) => Some(ErrorObject(OrElse(message, NotCompletedMessage)))
  }

  /** What the page receives for a response of the create-order route. */
  function AsSeenByPage(response: CashfreeRoute.RouteResponse): (r: SessionReply)
    ensures r.Answered? && r.status == response.status && r.body.JsonObject?
  {
    match response.body
    case ErrorBody(e) => Answered(response.status, JsonObject(Some(e), None))
    case SessionBody(_, sid) => Answered(response.status, JsonObject(None, Some(sid)))
  }

  /** The identifier the page sends for a customer: whitespace runs become
      `_`, then the text is lower-cased. */
  function PageCustomerId(fullName: string): (r: string)
    ensures |fullName| > 0 ==> |r| > 0
  {
    ToLower(CollapseWhitespace(fullName, "_"))
  }

  // ---------------------------------------------------------------------
  // handlePlaceOrder
  // ---------------------------------------------------------------------

  /** The observable steps of the handler, in order. */
  datatype Effect =
    | RequestSession(amount: int, customerId: string, customerPhone: string)
    | SubmitOrder(request: CreateOrderRequest)
    | DispatchSetCurrentOrder(order: Order)
    | DispatchClearCart
    | DispatchSetStep(step: CheckoutStep)
    | Navigate(path: string)
    | ToastSuccess(text: string)
    | ToastError(text: string)
    | ToastInfo(text: string)

  /** The steps that dispatch an action to a store. */
  predicate IsDispatch(e: Effect) {
    e.DispatchSetCurrentOrder? || e.DispatchClearCart? || e.DispatchSetStep?
  }

  /** The three stores the page reads and writes. */
  datatype Store = Store(cart: CartSlice.CartState, book: AddressSlice.AddressState, ui: UiSlice.UiState)

  const PaymentSuccessText := "Payment successful! Placing your order…"
  const PlaceOrderFailedText := "Failed to place order. Please try again."
  const CancelledByUser := "Payment cancelled by user"
  const CancelledText := "Payment cancelled."
  const SuccessPath := "/order-success"

  /** `parseInt(id, 10) || 1`: `NaN` and zero both become 1. */
  function ProductId(id: string): (r: int)
    ensures r != 0
    ensures NumberText.ParseInt(id).Some? && NumberText.ParseInt(id).value != 0 ==> r == NumberText.ParseInt(id).value
    ensures NumberText.ParseInt(id).None? || NumberText.ParseInt(id).value == 0 ==> r == 1
  {
    var parsed := NumberText.ParseInt(id);
    if parsed.Some? && parsed.value != 0 then parsed.value else 1
  }

  function ItemRequest(item: CartItem): (r: OrderItemRequest)
    ensures r.productId == ProductId(item.product.id)
    ensures r.quantity == item.quantity && r.price == item.product.price
  {
    OrderItemRequest(ProductId(item.product.id), item.quantity, item.product.price)
  }

  /** The payload of `placeOrder`: the address fields, the delivery charge
      for the cart total, the payment, and one entry per cart line. */
  function OrderRequest(cart: CartSlice.CartState, address: Address, payment: PaymentMethod): (r: CreateOrderRequest)
    ensures r.phone == address.phone && r.fullName == address.fullName && r.addressLine == address.addressLine
    ensures r.city == address.city && r.state == address.state && r.pincode == address.pincode
    ensures r.deliveryCharge == Formatters.CalculateDelivery(cart.totalAmount)
    ensures r.paymentMethod == payment
    ensures |r.items| == |cart.items|
    ensures forall i :: 0 <= i < |r.items| ==> r.items[i] == ItemRequest(cart.items[i])
  {
    CreateOrderRequest(address.phone, address.fullName, address.addressLine, address.city, address.state,
      address.pincode, Formatters.CalculateDelivery(cart.totalAmount), payment,
      seq(|cart.items|, i requires 0 <= i < |cart.items| => ItemRequest(cart.items[i])))
  }

  /** The toast for what the gateway step threw. */
  function CaughtToast(t: Thrown): (e: Effect)
    ensures t.ErrorObject? && t.message == CancelledByUser ==> e == ToastInfo(CancelledText)
    ensures t.ErrorObject? && t.message != CancelledByUser ==> e == ToastError(t.message)
    ensures t.NonErrorValue? ==> e == ToastError(NotCompletedMessage)
  {
    var message := if t.ErrorObject? then t.message else NotCompletedMessage;
    if message == CancelledByUser then ToastInfo(CancelledText) else ToastError(message)
  }

  /** The client-side record of the order the server accepted. */
  function PlacedOrder(cart: CartSlice.CartState, address: Address, payment: PaymentMethod,
                       response: CreateOrderResponse, createdAt: string): (o: Order)
    ensures o.orderId == NumberText.IntToString(response.orderId)
    ensures o.items == cart.items && o.address == address && o.totalAmount == cart.totalAmount
    ensures o.deliveryCharge == Formatters.CalculateDelivery(cart.totalAmount) && o.discount == 0
    ensures o.paymentMethod == payment && o.paymentStatus == PaymentSuccess && o.status == Placed
  {
    Order(NumberText.IntToString(response.orderId), cart.items, address, cart.totalAmount,
      Formatters.CalculateDelivery(cart.totalAmount), 0, payment, PaymentSuccess, Placed, createdAt)
  }

  /** The success toast names the server's order id in decimal. */
  function OrderPlacedText(orderId: int): (t: string)
    ensures |t| == |NumberText.IntToString(orderId)| + 28
    ensures StartsWith(t, "Order #") && EndsWith(t, " placed successfully!")
    ensures t[7..|t| - 21] == NumberText.IntToString(orderId)
  {
    var t := "Order #" + NumberText.IntToString(orderId) + " placed successfully!";
    assert t[..7] == "Order #";
    assert t[|t| - 21..] == " placed successfully!";
    assert t[7..|t| - 21] == NumberText.IntToString(orderId);
    t
  }

  /** What follows the settled `placeOrder`. */
  function AfterSubmission(cart: CartSlice.CartState, address: Address, payment: PaymentMethod,
                           settled: OrdersSlice.Settled<CreateOrderResponse>, createdAt: string): (effects: seq<Effect>)
    ensures |effects| >= 1
    ensures settled.Fulfilled? ==>
      && |effects| == 5
      && effects[..3] == [DispatchSetCurrentOrder(PlacedOrder(cart, address, payment, settled.value, createdAt)),
                          DispatchClearCart,
                          DispatchSetStep(SuccessStep)]
      && ToastSuccess(OrderPlacedText(settled.value.orderId)) in effects
      && effects[|effects| - 1] == Navigate(SuccessPath)
    ensures settled.Rejected? ==> |effects| == 1 && effects[0] == ToastError(OrElse(settled.payload, PlaceOrderFailedText))
    ensures forall e :: e in effects ==> !e.SubmitOrder? && !e.RequestSession?
  {
    match settled
    case Fulfilled(response) =>
      var effects :=
        [DispatchSetCurrentOrder(PlacedOrder(cart, address, payment, response, createdAt)),
         DispatchClearCart,
         DispatchSetStep(SuccessStep),
         ToastSuccess(OrderPlacedText(response.orderId)),
         Navigate(SuccessPath)];
      effects
    case Rejected(payload) => [ToastError(OrElse(payload, PlaceOrderFailedText))]
  }

  /** The session request made before an online payment; none for cash
      on delivery. */
  function SessionRequest(payment: PaymentMethod, address: Address): (effects: seq<Effect>)
    ensures |effects| <= 1
    ensures effects == [] <==> payment == Cod
    ensures forall e :: e in effects ==> e == RequestSession(GatewayAmount, PageCustomerId(address.fullName), address.phone)
  {
    if payment == Cod then [] else [RequestSession(GatewayAmount, PageCustomerId(address.fullName), address.phone)]
  }

  /** What the gateway step throws, if anything; cash on delivery skips it. */
  function PaymentFailure(payment: PaymentMethod, reply: SessionReply, widget: WidgetResult): (r: Option<Thrown>)
    ensures r.None? <==>
      || payment == Cod
      || (OffersSession(reply) && widget.WidgetCompleted?)
    ensures r.Some? ==> payment != Cod && r == OpenCashfreeCheckout(reply, widget)
  {
    if payment == Cod then None else OpenCashfreeCheckout(reply, widget)
  }

  /** Where the order is submitted among the steps after the payment:
      first for cash on delivery, after the payment toast otherwise. */
  function SubmitIndex(payment: PaymentMethod): nat {
    if payment == Cod then 0 else 1
  }

  /** Everything after a completed (or skipped) payment: the success toast
      for an online payment, the submission, and what follows it. */
  function Submission(cart: CartSlice.CartState, address: Address, payment: PaymentMethod,
                      submission: Outcome<CreateOrderResponse>, createdAt: string): (effects: seq<Effect>)
    ensures |effects| >= 2
    ensures payment != Cod ==> effects[0] == ToastSuccess(PaymentSuccessText)
    ensures effects[SubmitIndex(payment)] == SubmitOrder(OrderRequest(cart, address, payment))
    ensures forall i :: 0 <= i < |effects| && effects[i].SubmitOrder? ==> i == SubmitIndex(payment)
    ensures forall e :: e in effects ==> !e.RequestSession?
    ensures effects[SubmitIndex(payment) + 1..]
      == AfterSubmission(cart, address, payment, OrdersSlice.PlaceOrderThunk(submission), createdAt)
  {
    var paid := if payment == Cod then [] else [ToastSuccess(PaymentSuccessText)];
    var head := paid + [SubmitOrder(OrderRequest(cart, address, payment))];
    var tail := AfterSubmission(cart, address, payment, OrdersSlice.PlaceOrderThunk(submission), createdAt);
    var effects := head + tail;
    assert |head| == SubmitIndex(payment) + 1;
    assert effects[|head|..] == tail;
    forall i | |head| <= i < |effects|
      ensures !effects[i].SubmitOrder? && !effects[i].RequestSession?
    {
      assert effects[i] == tail[i - |head|];
      assert tail[i - |head|] in tail;
    }
    effects
  }

  /** Everything after the session request: the caught error's toast, or
      the submission and what follows it. */
  function AfterPayment(cart: CartSlice.CartState, address: Address, payment: PaymentMethod, reply: SessionReply,
                        widget: WidgetResult, submission: Outcome<CreateOrderResponse>, createdAt: string): (effects: seq<Effect>)
    ensures (exists i :: 0 <= i < |effects| && effects[i].SubmitOrder?) <==> PaymentFailure(payment, reply, widget).None?
    ensures PaymentFailure(payment, reply, widget).Some? ==>
      |effects| == 1 && effects[0] == CaughtToast(PaymentFailure(payment, reply, widget).value)
    ensures PaymentFailure(payment, reply, widget).None? ==>
      var k := SubmitIndex(payment);
      && |effects| >= 2
      && (payment != Cod ==> effects[0] == ToastSuccess(PaymentSuccessText))
      && effects[k] == SubmitOrder(OrderRequest(cart, address, payment))
      && effects[k + 1..] == AfterSubmission(cart, address, payment, OrdersSlice.PlaceOrderThunk(submission), createdAt)
  {
    match PaymentFailure(payment, reply, widget)
    case Some(t) => [CaughtToast(t)]
    case None => Submission(cart, address, payment, submission, createdAt)
  }

  /** `handlePlaceOrder`. Without a selected address nothing happens. For
      any method but cash on delivery the gateway is asked first (for
      `GatewayAmount`); if it throws, the error is toasted and the order is
      never submitted. Otherwise the order is submitted, and the outcome of
      `submission` decides between the success sequence and an error toast. */
  function HandlePlaceOrder(store: Store, payment: PaymentMethod, reply: SessionReply, widget: WidgetResult,
                            submission: Outcome<CreateOrderResponse>, createdAt: string): (effects: seq<Effect>)
  {
    match UseAddress.SelectedAddress(store.book)
    case None => []
    case Some(address) =>
      SessionRequest(payment, address) + AfterPayment(store.cart, address, payment, reply, widget, submission, createdAt)
  }

  /** The effect of one step on the stores: only the dispatched actions
      change them. */
  function ApplyEffect(store: Store, e: Effect): (r: Store)
    ensures r.book == store.book
    ensures !e.DispatchClearCart? ==> r.cart == store.cart
    ensures !e.DispatchSetCurrentOrder? && !e.DispatchSetStep? ==> r.ui == store.ui
  {
    match e
    case DispatchSetCurrentOrder(order) => store.(ui := UiSlice.SetCurrentOrder(store.ui, Some(order)))
    case DispatchClearCart => store.(cart := CartSlice.ClearCart(store.cart))
    case DispatchSetStep(step) => store.(ui := UiSlice.SetCheckoutStep(store.ui, step))
    case _ => store
  }

  function Apply(store: Store, effects: seq<Effect>): (r: Store)
    ensures r.book == store.book
    decreases |effects|
  {
    if |effects| == 0 then store else Apply(ApplyEffect(store, effects[0]), effects[1..])
  }

  predicate IsSubmit(e: Effect) {
    e.SubmitOrder?
  }

  predicate IsRequestSession(e: Effect) {
    e.RequestSession?
  }

  // ---------------------------------------------------------------------
  // The address and payment steps
  // ---------------------------------------------------------------------

  /** "Deliver to this Address": a truthy selection moves to the payment
      step; otherwise an error toast and no change. */
  function ProceedFromAddress(book: AddressSlice.AddressState, ui: UiSlice.UiState): (r: (UiSlice.UiState, Option<Effect>))
    ensures AddressSlice.HasSelection(book.selectedId) ==> r.0 == ui.(checkoutStep := PaymentStep) && r.1.None?
    ensures !AddressSlice.HasSelection(book.selectedId) ==> r.0 == ui && r.1 == Some(ToastError("Please select a delivery address"))
  {
    if AddressSlice.HasSelection(book.selectedId) then (UiSlice.SetCheckoutStep(ui, PaymentStep), None)
    else (ui, Some(ToastError("Please select a delivery address")))
  }

  /** The payment step's local state: the selected card's value and
      whether a payment is in progress. */
  datatype PaymentStepState = PaymentStepState(selected: string, processing: bool)

  const InitialPaymentStep := PaymentStepState("Card", false)

  /** The values of the payment cards the step renders. */
  const OfferedMethods: seq<string> := ["UPI"]

  /** Clicking a rendered card selects its value. */
  function SelectCard(st: PaymentStepState, i: nat): (r: PaymentStepState)
    requires i < |OfferedMethods|
    ensures r.selected in OfferedMethods && r.processing == st.processing
  {
    st.(selected := OfferedMethods[i])
  }

  /** The pay button: while a payment is in progress the step renders a
      spinner instead, so nothing can be pressed; otherwise the press marks
      the payment in progress and calls the handler with `COD` for the cash
      card and `Card` for everything else. */
  function PressPay(st: PaymentStepState): (r: (PaymentStepState, Option<PaymentMethod>))
    ensures st.processing ==> r == (st, None)
    ensures !st.processing ==> r.0.processing && r.0.selected == st.selected
    ensures !st.processing ==> r.1.Some? && (r.1.value == Cod <==> st.selected == "COD")
  {
    if st.processing then (st, None)
    else (st.(processing := true), Some(if st.selected == "COD" then Cod else Card))
  }

  /** The `finally` of the pay button: once the handler has settled, by
      resolving or throwing, the step is no longer processing. */
  function FinishPayment(st: PaymentStepState): (r: PaymentStepState)
    ensures !r.processing && r.selected == st.selected
  {
    st.(processing := false)
  }

  // ---------------------------------------------------------------------
  // The address form
  // ---------------------------------------------------------------------

  /** The address a valid form describes; the form has no default flag. */
  function AddressOf(id: string, v: Validators.AddressFormValues): (a: Address)
    ensures a.id == id && !a.isDefault && a.fullName == v.fullName && a.phone == v.phone
    ensures a.addressLine == v.addressLine && a.city == v.city && a.state == v.state
    ensures a.pincode == v.pincode && a.kind == v.kind
  {
    Address(id, v.fullName, v.phone, v.addressLine, v.city, v.state, v.pincode, v.kind, false)
  }

  /** Saving the new-address form: a form that fails the schema changes
      nothing; a valid one is added under `newId`. */
  function SubmitNewAddress(book: AddressSlice.AddressState, form: Validators.AddressForm, newId: string): (r: AddressSlice.AddressState)
    ensures Validators.Validate(form).Rejected? ==> r == book
    ensures Validators.Validate(form).Accepted? ==>
      r == AddressSlice.AddAddress(book, AddressOf("", Validators.Validate(form).values), newId)
  {
    match Validators.Validate(form)
    case Rejected(_) => book
    case Accepted(values) => UseAddress.HandleAddAddress(book, AddressOf("", values), newId)
  }

  /** Saving the edit form over `editing`: the form's fields replace the
      address's, its id and default flag are kept. */
  function SubmitEditedAddress(book: AddressSlice.AddressState, editing: Option<Address>, form: Validators.AddressForm): (r: AddressSlice.AddressState)
    ensures editing.None? || Validators.Validate(form).Rejected? ==> r == book
    ensures editing.Some? && Validators.Validate(form).Accepted? ==>
      r == AddressSlice.EditAddress(book,
        AddressOf(editing.value.id, Validators.Validate(form).values).(isDefault := editing.value.isDefault))
  {
    match Validators.Validate(form)
    case Rejected(_) => book
    case Accepted(values) =>
      if editing.None? then book
      else UseAddress.HandleEditAddress(book, AddressOf(editing.value.id, values).(isDefault := editing.value.isDefault))
  }

  // ---------------------------------------------------------------------
  // Lemmas
  // ---------------------------------------------------------------------

  lemma {:induction false} ApplyAppend(store: Store, a: seq<Effect>, b: seq<Effect>)
    ensures Apply(store, a + b) == Apply(Apply(store, a), b)
    decreases |a|
  {
    if |a| == 0 {
      assert a + b == b;
    } else {
      assert (a + b)[0] == a[0];
      assert (a + b)[1..] == a[1..] + b;
      ApplyAppend(ApplyEffect(store, a[0]), a[1..], b);
    }
  }

  /** Steps before the first dispatch do not count. */
  lemma ApplySkip(store: Store, effects: seq<Effect>, n: nat)
    requires n <= |effects|
    requires forall i :: 0 <= i < n ==> !IsDispatch(effects[i])
    ensures Apply(store, effects) == Apply(store, effects[n..])
  {
    assert effects == effects[..n] + effects[n..];
    ApplyAppend(store, effects[..n], effects[n..]);
    ApplyWithoutDispatch(store, effects[..n]);
  }

  /** Toasts, requests and navigation leave the stores alone. */
  lemma {:induction false} ApplyWithoutDispatch(store: Store, effects: seq<Effect>)
    requires forall i :: 0 <= i < |effects| ==> !IsDispatch(effects[i])
    ensures Apply(store, effects) == store
    decreases |effects|
  {
    if |effects| > 0 {
      ApplyWithoutDispatch(store, effects[1..]);
    }
  }

  /** Without a selected address the handler does nothing at all. */
  lemma NoAddressNoEffects(store: Store, payment: PaymentMethod, reply: SessionReply, widget: WidgetResult,
                           submission: Outcome<CreateOrderResponse>, createdAt: string)
    requires UseAddress.SelectedAddress(store.book).None?
    ensures HandlePlaceOrder(store, payment, reply, widget, submission, createdAt) == []
  {
  }

  /** Cash on delivery never contacts the gateway: no session is
      requested and the gateway's behaviour is irrelevant. */
  lemma CashOnDeliverySkipsGateway(store: Store, reply: SessionReply, widget: WidgetResult,
                                   reply2: SessionReply, widget2: WidgetResult,
                                   submission: Outcome<CreateOrderResponse>, createdAt: string)
    ensures forall e :: e in HandlePlaceOrder(store, Cod, reply, widget, submission, createdAt) ==> !e.RequestSession?
    ensures HandlePlaceOrder(store, Cod, reply, widget, submission, createdAt)
      == HandlePlaceOrder(store, Cod, reply2, widget2, submission, createdAt)
  {
    match UseAddress.SelectedAddress(store.book)
    case None =>
    case Some(address) =>
      assert HandlePlaceOrder(store, Cod, reply, widget, submission, createdAt)
        == [] + Submission(store.cart, address, Cod, submission, createdAt);
  }

  /** A failed or cancelled payment never submits the order and leaves
      every store unchanged. */
  lemma GatewayFailureSubmitsNothing(store: Store, payment: PaymentMethod, reply: SessionReply, widget: WidgetResult,
                                     submission: Outcome<CreateOrderResponse>, createdAt: string)
    requires payment != Cod && OpenCashfreeCheckout(reply, widget).Some?
    ensures forall e :: e in HandlePlaceOrder(store, payment, reply, widget, submission, createdAt) ==> !e.SubmitOrder? && !IsDispatch(e)
    ensures Apply(store, HandlePlaceOrder(store, payment, reply, widget, submission, createdAt)) == store
  {
    match UseAddress.SelectedAddress(store.book)
    case None =>
    case Some(address) =>
      ApplyHandle(store, address, payment, reply, widget, submission, createdAt);
      ApplyAfterPayment(store, address, payment, reply, widget, submission, createdAt);
  }

  /** No two steps of `effects` submit an order. */
  predicate SubmitsAtMostOnce(effects: seq<Effect>) {
    forall i, j :: 0 <= i < j < |effects| && effects[i].SubmitOrder? ==> !effects[j].SubmitOrder?
  }

  lemma SubmitsAtMostOnceAppend(a: seq<Effect>, b: seq<Effect>)
    requires forall e :: e in a ==> !e.SubmitOrder?
    requires SubmitsAtMostOnce(b)
    ensures SubmitsAtMostOnce(a + b)
  {
    var ab := a + b;
    forall i, j | 0 <= i < j < |ab| && ab[i].SubmitOrder?
      ensures !ab[j].SubmitOrder?
    {
      if i >= |a| {
        assert ab[i] == b[i - |a|] && ab[j] == b[j - |a|];
      }
    }
  }

  /** The order is submitted at most once, and when paying online only
      after the gateway session was requested. */
  lemma AtMostOneSubmission(store: Store, payment: PaymentMethod, reply: SessionReply, widget: WidgetResult,
                            submission: Outcome<CreateOrderResponse>, createdAt: string)
    ensures SubmitsAtMostOnce(HandlePlaceOrder(store, payment, reply, widget, submission, createdAt))
    ensures var effects := HandlePlaceOrder(store, payment, reply, widget, submission, createdAt);
      (exists j :: 0 <= j < |effects| && effects[j].SubmitOrder?) && payment != Cod ==> effects[0].RequestSession?
  {
    match UseAddress.SelectedAddress(store.book)
    case None =>
    case Some(address) =>
      var request := SessionRequest(payment, address);
      var rest := AfterPayment(store.cart, address, payment, reply, widget, submission, createdAt);
      var effects := request + rest;
      assert HandlePlaceOrder(store, payment, reply, widget, submission, createdAt) == effects;
      AfterPaymentSubmitsAtMostOnce(store.cart, address, payment, reply, widget, submission, createdAt);
      SubmitsAtMostOnceAppend(request, rest);
      if payment != Cod {
        assert effects[0] == request[0];
      }
  }

  lemma AfterPaymentSubmitsAtMostOnce(cart: CartSlice.CartState, address: Address, payment: PaymentMethod, reply: SessionReply,
                                      widget: WidgetResult, submission: Outcome<CreateOrderResponse>, createdAt: string)
    ensures SubmitsAtMostOnce(AfterPayment(cart, address, payment, reply, widget, submission, createdAt))
  {
    if PaymentFailure(payment, reply, widget).None? {
      var effects := Submission(cart, address, payment, submission, createdAt);
      assert AfterPayment(cart, address, payment, reply, widget, submission, createdAt) == effects;
    }
  }

  /** The order goes through: an address is selected, the payment was
      completed or is due on delivery, and the server accepted the order. */
  predicate GoesThrough(store: Store, payment: PaymentMethod, reply: SessionReply, widget: WidgetResult,
                   submission: Outcome<CreateOrderResponse>)
  {
    UseAddress.SelectedAddress(store.book).Some?
    && PaymentFailure(payment, reply, widget).None?
    && submission.Returned?
  }

  /** The steps after the settled submission touch a store exactly when
      the server accepted the order. */
  lemma DispatchesOnlyWhenFulfilled(cart: CartSlice.CartState, address: Address, payment: PaymentMethod,
                                    settled: OrdersSlice.Settled<CreateOrderResponse>, createdAt: string)
    ensures var effects := AfterSubmission(cart, address, payment, settled, createdAt);
      (exists i :: 0 <= i < |effects| && IsDispatch(effects[i])) <==> settled.Fulfilled?
  {
    var effects := AfterSubmission(cart, address, payment, settled, createdAt);
    if settled.Fulfilled? {
      assert IsDispatch(effects[1]);
    }
  }

  /** The stores after the steps that follow the settled submission. */
  lemma ApplyAfterSubmission(store: Store, address: Address, payment: PaymentMethod,
                             settled: OrdersSlice.Settled<CreateOrderResponse>, createdAt: string)
    ensures settled.Rejected? ==> Apply(store, AfterSubmission(store.cart, address, payment, settled, createdAt)) == store
    ensures settled.Fulfilled? ==>
      Apply(store, AfterSubmission(store.cart, address, payment, settled, createdAt))
      == Store(CartSlice.InitialCart, store.book,
               store.ui.(checkoutStep := SuccessStep,
                         currentOrder := Some(PlacedOrder(store.cart, address, payment, settled.value, createdAt))))
  {
    var tail := AfterSubmission(store.cart, address, payment, settled, createdAt);
    if settled.Fulfilled? {
      ApplyFulfilled(store, PlacedOrder(store.cart, address, payment, settled.value, createdAt), tail);
    } else {
      ApplyWithoutDispatch(store, tail);
    }
  }

  lemma ApplyFulfilled(store: Store, order: Order, tail: seq<Effect>)
    requires |tail| == 5
    requires tail[0] == DispatchSetCurrentOrder(order) && tail[1] == DispatchClearCart && tail[2] == DispatchSetStep(SuccessStep)
    requires tail[3].ToastSuccess? && tail[4].Navigate?
    ensures Apply(store, tail)
      == Store(CartSlice.InitialCart, store.book, store.ui.(checkoutStep := SuccessStep, currentOrder := Some(order)))
  {
    var s1 := store.(ui := UiSlice.SetCurrentOrder(store.ui, Some(order)));
    var s2 := s1.(cart := CartSlice.ClearCart(s1.cart));
    var s3 := s2.(ui := UiSlice.SetCheckoutStep(s2.ui, SuccessStep));
    assert Apply(store, tail) == Apply(s1, tail[1..]);
    assert Apply(s1, tail[1..]) == Apply(s2, tail[2..]);
    assert Apply(s2, tail[2..]) == Apply(s3, tail[3..]);
    ApplyWithoutDispatch(s3, tail[3..]);
  }

  /** The stores after a completed (or skipped) payment. */
  lemma ApplySubmission(store: Store, address: Address, payment: PaymentMethod,
                        submission: Outcome<CreateOrderResponse>, createdAt: string)
    ensures Apply(store, Submission(store.cart, address, payment, submission, createdAt))
      == Apply(store, AfterSubmission(store.cart, address, payment, OrdersSlice.PlaceOrderThunk(submission), createdAt))
  {
    var effects := Submission(store.cart, address, payment, submission, createdAt);
    SubmissionPrefixQuiet(store.cart, address, payment, submission, createdAt);
    ApplySkip(store, effects, SubmitIndex(payment) + 1);
  }

  /** The steps up to the submission dispatch nothing. */
  lemma SubmissionPrefixQuiet(cart: CartSlice.CartState, address: Address, payment: PaymentMethod,
                              submission: Outcome<CreateOrderResponse>, createdAt: string)
    ensures var effects := Submission(cart, address, payment, submission, createdAt);
      forall i :: 0 <= i <= SubmitIndex(payment) ==> !IsDispatch(effects[i])
  {
  }

  /** With an address selected, the session request leaves the stores
      alone. */
  lemma ApplyHandle(store: Store, address: Address, payment: PaymentMethod, reply: SessionReply, widget: WidgetResult,
                    submission: Outcome<CreateOrderResponse>, createdAt: string)
    requires UseAddress.SelectedAddress(store.book) == Some(address)
    ensures Apply(store, HandlePlaceOrder(store, payment, reply, widget, submission, createdAt))
      == Apply(store, AfterPayment(store.cart, address, payment, reply, widget, submission, createdAt))
  {
    var request := SessionRequest(payment, address);
    var rest := AfterPayment(store.cart, address, payment, reply, widget, submission, createdAt);
    ApplyAppend(store, request, rest);
    ApplyWithoutDispatch(store, request);
  }

  /** A failed payment leaves the stores alone; a completed one leaves
      them as the settled submission decides. */
  lemma ApplyAfterPayment(store: Store, address: Address, payment: PaymentMethod, reply: SessionReply, widget: WidgetResult,
                          submission: Outcome<CreateOrderResponse>, createdAt: string)
    ensures PaymentFailure(payment, reply, widget).Some? ==>
      Apply(store, AfterPayment(store.cart, address, payment, reply, widget, submission, createdAt)) == store
    ensures PaymentFailure(payment, reply, widget).None? ==>
      Apply(store, AfterPayment(store.cart, address, payment, reply, widget, submission, createdAt))
      == Apply(store, AfterSubmission(store.cart, address, payment, OrdersSlice.PlaceOrderThunk(submission), createdAt))
  {
    if PaymentFailure(payment, reply, widget).Some? {
      ApplyWithoutDispatch(store, AfterPayment(store.cart, address, payment, reply, widget, submission, createdAt));
    } else {
      ApplySubmission(store, address, payment, submission, createdAt);
    }
  }

  /** The outcome on the stores: when the order goes through, the cart is
      emptied, the order is recorded with the server's id and the success
      step is shown, with the address book untouched; in every other case
      no store changes. */
  lemma PlaceOrderOutcome(store: Store, payment: PaymentMethod, reply: SessionReply, widget: WidgetResult,
                          submission: Outcome<CreateOrderResponse>, createdAt: string)
    ensures !GoesThrough(store, payment, reply, widget, submission) ==>
      Apply(store, HandlePlaceOrder(store, payment, reply, widget, submission, createdAt)) == store
    ensures GoesThrough(store, payment, reply, widget, submission) ==>
      Apply(store, HandlePlaceOrder(store, payment, reply, widget, submission, createdAt))
      == Store(CartSlice.InitialCart, store.book,
               store.ui.(checkoutStep := SuccessStep,
                         currentOrder := Some(PlacedOrder(store.cart, UseAddress.SelectedAddress(store.book).value,
                                                          payment, submission.value, createdAt))))
  {
    match UseAddress.SelectedAddress(store.book)
    case None =>
    case Some(address) =>
      ApplyHandle(store, address, payment, reply, widget, submission, createdAt);
      ApplyAfterPayment(store, address, payment, reply, widget, submission, createdAt);
      ApplyAfterSubmission(store, address, payment, OrdersSlice.PlaceOrderThunk(submission), createdAt);
  }

  /** A drop-in checkout that fails with the cancellation message cancels
      the order: after the session request the customer only sees the
      "Payment cancelled." info toast, and nothing is submitted. */
  lemma CancelledPaymentIsInfo(store: Store, payment: PaymentMethod, status: int, error: Option<string>, sessionId: string,
                               submission: Outcome<CreateOrderResponse>, createdAt: string)
    requires UseAddress.SelectedAddress(store.book).Some?
    requires payment != Cod && CashfreeRoute.IsOk(status) && sessionId != ""
    ensures var reply := Answered(status, JsonObject(error, Some(sessionId)));
      HandlePlaceOrder(store, payment, reply, WidgetFailed(Some(CancelledByUser)), submission, createdAt)
      == SessionRequest(payment, UseAddress.SelectedAddress(store.book).value) + [ToastInfo(CancelledText)]
  {
  }

  /** A server rejection after a completed online payment is reported with
      exactly the toast a rejected cash-on-delivery order gets; nothing
      tells the customer that the payment went through. */
  lemma PaidButRejectedLooksLikeCashFailure(store: Store, reply: SessionReply, widget: WidgetResult,
                                            thrown: Thrown, createdAt: string)
    requires UseAddress.SelectedAddress(store.book).Some?
    requires OpenCashfreeCheckout(reply, widget).None?
    ensures var online := HandlePlaceOrder(store, Card, reply, widget, Threw(thrown), createdAt);
      var cash := HandlePlaceOrder(store, Cod, reply, widget, Threw(thrown), createdAt);
      |online| == 4 && |cash| == 2 && online[3] == cash[1]
      && cash[1] == ToastError(OrElse(Some(OrdersSlice.RejectionMessage(thrown, OrdersSlice.PlaceOrderFallback)),
                                      PlaceOrderFailedText))
  {
  }

  /** A numeric product id is sent as its number; zero and non-numeric ids
      are both sent as 1. */
  lemma ProductIdOfNumber(n: int)
    ensures n != 0 ==> ProductId(NumberText.IntToString(n)) == n
    ensures ProductId(NumberText.IntToString(0)) == 1
  {
    NumberText.ParseIntOfIntToString(n);
    NumberText.ParseIntOfIntToString(0);
  }

  /** An id that starts with a letter (such as a slug) is sent as 1. */
  lemma ProductIdOfSlug(id: string)
    requires |id| > 0 && IsAsciiLetter(id[0])
    ensures ProductId(id) == 1
  {
    assert DropLeadingWhitespace(id) == id;
    assert NumberText.DigitRunLength(id) == 0;
  }

  /** The recorded order id reads back as the server's numeric id. */
  lemma OrderIdReadsBack(cart: CartSlice.CartState, address: Address, payment: PaymentMethod,
                         response: CreateOrderResponse, createdAt: string)
    ensures NumberText.ParseInt(PlacedOrder(cart, address, payment, response, createdAt).orderId) == Some(response.orderId)
  {
    NumberText.ParseIntOfIntToString(response.orderId);
  }

  /** Every error the create-order route answers reaches the page as an
      `Error` with the route's own message; a session answer leaves the
      outcome to the drop-in checkout. */
  lemma RouteErrorsReachPage(body: CashfreeRoute.RequestBody, appUrl: Option<string>, orderStamp: nat,
                             customerStamp: nat, gateway: CashfreeRoute.GatewayReply, widget: WidgetResult)
    ensures var response := CashfreeRoute.Post(body, appUrl, orderStamp, customerStamp, gateway).response;
      response.body.ErrorBody? ==>
        OpenCashfreeCheckout(AsSeenByPage(response), widget) == Some(ErrorObject(response.body.error))
    ensures var response := CashfreeRoute.Post(body, appUrl, orderStamp, customerStamp, gateway).response;
      response.body.SessionBody? ==>
        OpenCashfreeCheckout(AsSeenByPage(response), widget) == OpenCashfreeCheckout(Answered(200, JsonObject(None, Some(response.body.paymentSessionId))), widget)
  {
  }

  /** The request the page sends always passes the route's amount check,
      so an order for `GatewayAmount` reaches the gateway. */
  lemma PageAmountAccepted(fullName: string, phone: string, appUrl: Option<string>, orderStamp: nat,
                           customerStamp: nat, gateway: CashfreeRoute.GatewayReply)
    ensures var body := CashfreeRoute.Json(CashfreeRoute.RouteRequest(
              CashfreeRoute.AmountNumber(GatewayAmount), CashfreeRoute.IdText(Some(PageCustomerId(fullName))), Some(phone), None));
      var run := CashfreeRoute.Post(body, appUrl, orderStamp, customerStamp, gateway);
      run.sent.Some? && run.sent.value.orderAmount == GatewayAmount
  {
  }

  /** For a name the address form accepts, the customer id that reaches the
      gateway is the name without whitespace, lower-cased: the page's `_`
      separators are dropped again by the route. */
  lemma {:induction false} CustomerIdOfValidName(fullName: string, stamp: nat)
    requires Validators.ValidFullName(fullName)
    ensures CashfreeRoute.SanitizedCustomerId(Some(PageCustomerId(fullName)), stamp) == ToLower(RemoveWhitespace(fullName))
  {
    var sent := PageCustomerId(fullName);
    assert OrElse(Some(sent), "cust" + NumberText.NatToString(stamp)) == sent;
    calc {
      KeepAlnum(sent);
      { KeepAlnumToLower(CollapseWhitespace(fullName, "_")); }
      ToLower(KeepAlnum(CollapseWhitespace(fullName, "_")));
      { KeepAlnumCollapse(fullName); }
      ToLower(KeepAlnum(fullName));
      { KeepAlnumOfLettersAndSpaces(fullName); }
      ToLower(RemoveWhitespace(fullName));
    }
  }

  /** A name of blanks passes the form, yet its customer id is empty. */
  lemma BlankNameGivesEmptyCustomerId(stamp: nat)
    ensures Validators.ValidFullName("   ")
    ensures CashfreeRoute.SanitizedCustomerId(Some(PageCustomerId("   ")), stamp) == ""
  {
    assert IsWhitespace(' ');
    assert PageCustomerId("   ") == "_";
    assert KeepAlnum("_") == [];
  }

  /** The address step's guard only looks at the selected id: an id whose
      address was removed from the book still opens the payment step, where
      the place-order handler then does nothing. */
  lemma StaleSelectionPassesGuard(ui: UiSlice.UiState, payment: PaymentMethod, reply: SessionReply, widget: WidgetResult,
                                  submission: Outcome<CreateOrderResponse>, createdAt: string)
    ensures var book := AddressSlice.AddressState([], Some("addr-1"));
      ProceedFromAddress(book, ui).0.checkoutStep == PaymentStep
      && HandlePlaceOrder(Store(CartSlice.InitialCart, book, ui), payment, reply, widget, submission, createdAt) == []
  {
  }

  /** Only the online card is rendered, so every press of the pay button
      that does something places a `Card` order. */
  lemma PayButtonAlwaysCard(st: PaymentStepState)
    requires st.selected == InitialPaymentStep.selected || st.selected in OfferedMethods
    ensures PressPay(st).1 != Some(Cod)
  {
  }

  /** A second press while the first payment is in progress does nothing,
      so the handler runs once per press; once it has settled the button
      works again, for the same card. */
  lemma PressPayOncePerPayment(st: PaymentStepState)
    requires !st.processing
    ensures PressPay(PressPay(st).0).1.None?
    ensures PressPay(PressPay(st).0).0 == PressPay(st).0
    ensures PressPay(FinishPayment(PressPay(st).0)) == PressPay(st)
  {
  }

  /** Saving either address form keeps a valid selection valid. */
  lemma SubmitKeepsSelectionValid(book: AddressSlice.AddressState, form: Validators.AddressForm, newId: string, editing: Option<Address>)
    requires AddressSlice.SelectionValid(book)
    ensures AddressSlice.SelectionValid(SubmitNewAddress(book, form, newId))
    ensures AddressSlice.SelectionValid(SubmitEditedAddress(book, editing, form))
  {
    match Validators.Validate(form)
    case Rejected(_) =>
    case Accepted(values) =>
      AddressSlice.ReduceKeepsSelectionValid(book, AddressSlice.Add(AddressOf("", values), newId));
      if editing.Some? {
        var edited := AddressOf(editing.value.id, values).(isDefault := editing.value.isDefault);
        AddressSlice.ReduceKeepsSelectionValid(book, AddressSlice.Edit(edited));
      }
  }

  /** The first address saved from the form into an empty book is the
      selected delivery address, made the default, with the form's values. */
  lemma FirstSubmittedAddressSelected(book: AddressSlice.AddressState, form: Validators.AddressForm, newId: string)
    requires |book.addresses| == 0 && AddressSlice.SelectionValid(book)
    requires Validators.Validate(form).Accepted?
    ensures UseAddress.SelectedAddress(SubmitNewAddress(book, form, newId))
      == Some(AddressOf(newId, Validators.Validate(form).values).(isDefault := true))
  {
    var entry := AddressOf("", Validators.Validate(form).values);
    UseAddress.SelectedAfterFirstAdd(book, entry, newId);
  }

  /** On a book whose selection names a saved address, the address step's
      guard lets the customer through only when the place-order handler
      will find a delivery address, and always does when one is selected
      under a non-empty id. */
  lemma GuardMatchesSelectedAddress(book: AddressSlice.AddressState, ui: UiSlice.UiState)
    requires AddressSlice.SelectionValid(book)
    ensures ProceedFromAddress(book, ui).1.None? ==> UseAddress.SelectedAddress(book).Some?
    ensures UseAddress.SelectedAddress(book).Some? && book.selectedId != Some("") ==> ProceedFromAddress(book, ui).1.None?
  {
  }
}

=== FILE: formatters.dfy ===
/**
 * Pure formatters (utils/formatters.ts): the delivery-fee rule and text
 * truncation.
 */
module Formatters {
  import opened Text
  import Seqs

  const FreeDeliveryThreshold := 499
  const FlatDeliveryFee := 40

  /** `calculateDelivery`: free from 499 upwards, 40 below. */
  function CalculateDelivery(totalAmount: int): (fee: int)
    ensures fee == 0 || fee == FlatDeliveryFee
    ensures fee == 0 <==> totalAmount >= FreeDeliveryThreshold
  {
    if totalAmount >= FreeDeliveryThreshold then 0 else FlatDeliveryFee
  }

  /** `truncateText`: text within the limit is kept; longer text is cut at
      `maxLength` characters, stripped of trailing whitespace and given
      `"..."`. */
  function TruncateText(text: string, maxLength: int): (r: string)
    ensures |text| <= maxLength ==> r == text
    ensures |text| > maxLength ==> |r| >= 3
    ensures |text| > maxLength ==>
      var body := r[..|r| - 3];
      && EndsWith(r, "...")
      && r == body + "..."
      && |body| <= (if maxLength < 0 then 0 else maxLength)
      && body == text[..|body|]
      && (|body| == 0 || !IsWhitespace(body[|body| - 1]))
      && (forall i :: |body| <= i < maxLength ==> IsWhitespace(text[i]))
  {
    if |text| <= maxLength then text
    else TrimEnd(Seqs.Take(text, maxLength)) + "..."
  }

  // ---------------------------------------------------------------------
  // Lemmas
  // ---------------------------------------------------------------------

  /** The fee never decreases as the subtotal falls. */
  lemma DeliveryMonotone(a: int, b: int)
    requires a <= b
    ensures CalculateDelivery(b) <= CalculateDelivery(a)
  {
  }

  /** The boundary sits at 499, on the free side; a subtotal of 450 pays
      490 in all and one of 500 pays 500. */
  lemma DeliveryBoundary()
    ensures CalculateDelivery(498) == 40 && CalculateDelivery(499) == 0
    ensures 450 + CalculateDelivery(450) == 490 && 500 + CalculateDelivery(500) == 500
  {
  }

  /** Truncation never yields more than `maxLength + 3` characters. */
  lemma TruncateLength(text: string, maxLength: int)
    requires maxLength >= 0
    ensures |TruncateText(text, maxLength)| <= maxLength + 3
  {
  }
}

=== FILE: number_text.dfy ===
/**
 * Decimal text of integers: JavaScript's `String(n)` for integral `n`, and
 * `parseInt(s, 10)`, which the checkout page uses to turn product ids into
 * numeric `product_id`s and the admin page uses (through `String`) to search
 * order ids.
 */
module NumberText {
  import opened Wrappers
  import opened Text

  function DigitChar(d: nat): (c: char)
    requires d < 10
    ensures IsDigit(c)
  {
    ('0' as int + d) as char
  }

  /** The value of one decimal digit character. */
  function DigitValue(c: char): int {
    c as int - '0' as int
  }

  /** `String(n)` for a natural number: decimal digits, no leading zero. */
  function NatToString(n: nat): (r: string)
    ensures |r| >= 1
    ensures forall i :: 0 <= i < |r| ==> IsDigit(r[i])
    ensures r[0] == '0' ==> n == 0
    decreases n
  {
    if n < 10 then [DigitChar(n)] else NatToString(n / 10) + [DigitChar(n % 10)]
  }

  /** `String(n)` for an integer; JavaScript agrees for safe integers
      (magnitude below 2^53), its numbers being doubles. */
  function IntToString(n: int): (r: string)
    ensures |r| >= 1
    ensures n < 0 <==> r[0] == '-'
  {
    if n < 0 then "-" + NatToString(-n) else NatToString(n)
  }

  /** The value of a string of decimal digits, most significant first. */
  function DigitsValue(ds: string): int
  {
    if |ds| == 0 then 0 else DigitsValue(ds[..|ds| - 1]) * 10 + DigitValue(ds[|ds| - 1])
  }

  /** Length of the longest prefix of `s` made of decimal digits. */
  function DigitRunLength(s: string): (k: nat)
    ensures k <= |s|
    ensures forall i :: 0 <= i < k ==> IsDigit(s[i])
    ensures k == |s| || !IsDigit(s[k])
  {
    if |s| > 0 && IsDigit(s[0]) then 1 + DigitRunLength(s[1..]) else 0
  }

  /** `parseInt(s, 10)`: leading whitespace is skipped, one optional sign is
      read, then the longest run of digits; no digits gives `NaN` (`None`). */
  function ParseInt(s: string): (r: Option<int>)
  {
    var t := DropLeadingWhitespace(s);
    var negative := |t| > 0 && t[0] == '-';
    var body := if |t| > 0 && (t[0] == '-' || t[0] == '+') then t[1..] else t;
    var k := DigitRunLength(body);
    if k == 0 then None
    else if negative then Some(-DigitsValue(body[..k]))
    else Some(DigitsValue(body[..k]))
  }

  lemma {:induction false} DigitsValueOfNat(n: nat)
    ensures DigitsValue(NatToString(n)) == n
    decreases n
  {
    if n >= 10 {
      var ds := NatToString(n);
      assert ds[..|ds| - 1] == NatToString(n / 10);
      DigitsValueOfNat(n / 10);
    }
  }

  lemma {:induction false} DigitRunOfDigits(s: string)
    requires forall i :: 0 <= i < |s| ==> IsDigit(s[i])
    ensures DigitRunLength(s) == |s|
  {
    if |s| > 0 {
      DigitRunOfDigits(s[1..]);
    }
  }

  /** `parseInt(String(n), 10) == n`: the decimal text reads back as the
      same integer (in JavaScript, for safe integers). */
  lemma ParseIntOfIntToString(n: int)
    ensures ParseInt(IntToString(n)) == Some(n)
  {
    var s := IntToString(n);
    var m: nat := if n < 0 then -n else n;
    var digits := NatToString(m);
    assert DropLeadingWhitespace(s) == s by {
      assert !IsWhitespace(s[0]);
    }
    assert s == if n < 0 then "-" + digits else digits;
    var body := if n < 0 then s[1..] else s;
    assert body == digits;
    assert DigitRunLength(body) == |body| by {
      DigitRunOfDigits(digits);
    }
    assert body[..|body|] == digits;
    DigitsValueOfNat(m);
  }
}

=== FILE: orders_slice.dfy ===
/**
 * Order placement and the order report (features/orders/ordersSlice.ts):
 * two asynchronous thunks and the bookkeeping of their pending, fulfilled
 * and rejected actions.
 */
module OrdersSlice {
  import opened Wrappers
  import opened Types

  /** How a thunk settles; a rejection carries the `rejectWithValue`
      payload, absent when the thunk was rejected some other way. */
  datatype Settled<T> = Fulfilled(value: T) | Rejected(payload: Option<string>)

  const PlaceOrderFallback := "Failed to place order"
  const FetchOrdersFallback := "Failed to fetch orders"
  const UnknownError := "Unknown error"

  /** The message a thunk rejects with: the thrown `Error`'s message, or
      the fallback for anything else. */
  function RejectionMessage(t: Thrown, fallback: string): (m: string)
    ensures t.ErrorObject? ==> m == t.message
    ensures t.NonErrorValue? ==> m == fallback
  {
    match t
    case ErrorObject(message) => message
    case NonErrorValue => fallback
  }

  /** `placeOrder`: the service's response, or a rejection with a message. */
  function PlaceOrderThunk(call: Outcome<CreateOrderResponse>): (r: Settled<CreateOrderResponse>)
    ensures r.Fulfilled? <==> call.Returned?
    ensures call.Returned? ==> r.value == call.value
    ensures call.Threw? ==> r.payload == Some(RejectionMessage(call.thrown, PlaceOrderFallback))
  {
    match call
    case Returned(v) => Fulfilled(v)
    case Threw(t) => Rejected(Some(RejectionMessage(t, PlaceOrderFallback)))
  }

  /** `fetchOrders`: the report rows, or a rejection with a message. */
  function FetchOrdersThunk(call: Outcome<seq<OrderDetailRow>>): (r: Settled<seq<OrderDetailRow>>)
    ensures r.Fulfilled? <==> call.Returned?
    ensures call.Returned? ==> r.value == call.value
    ensures call.Threw? ==> r.payload == Some(RejectionMessage(call.thrown, FetchOrdersFallback))
  {
    match call
    case Returned(v) => Fulfilled(v)
    case Threw(t) => Rejected(Some(RejectionMessage(t, FetchOrdersFallback)))
  }

  datatype OrdersState = OrdersState(
    isPlacing: bool,
    placedOrderId: Option<int>,
    placedUserId: Option<int>,
    placeError: Option<string>,
    isFetching: bool,
    orders: seq<OrderDetailRow>,
    fetchError: Option<string>)

  const InitialOrders := OrdersState(false, None, None, None, false, [], None)

  /** The four fields of order placement agree. */
  predicate SamePlaceFields(a: OrdersState, b: OrdersState) {
    a.isPlacing == b.isPlacing && a.placedOrderId == b.placedOrderId
    && a.placedUserId == b.placedUserId && a.placeError == b.placeError
  }

  /** The three fields of the report agree. */
  predicate SameFetchFields(a: OrdersState, b: OrdersState) {
    a.isFetching == b.isFetching && a.orders == b.orders && a.fetchError == b.fetchError
  }

  function PlacePending(s: OrdersState): (r: OrdersState)
    ensures r.isPlacing && r.placeError.None?
    ensures r.placedOrderId == s.placedOrderId && r.placedUserId == s.placedUserId
    ensures SameFetchFields(r, s)
  {
    s.(isPlacing := true, placeError := None)
  }

  function PlaceFulfilled(s: OrdersState, response: CreateOrderResponse): (r: OrdersState)
    ensures !r.isPlacing
    ensures r.placedOrderId == Some(response.orderId) && r.placedUserId == Some(response.userId)
    ensures r.placeError == s.placeError
    ensures SameFetchFields(r, s)
  {
    s.(isPlacing := false, placedOrderId := Some(response.orderId), placedUserId := Some(response.userId))
  }

  function PlaceRejected(s: OrdersState, payload: Option<string>): (r: OrdersState)
    ensures !r.isPlacing
    ensures r.placeError == Some(payload.GetOr(UnknownError))
    ensures r.placedOrderId == s.placedOrderId && r.placedUserId == s.placedUserId
    ensures SameFetchFields(r, s)
  {
    s.(isPlacing := false, placeError := Some(payload.GetOr(UnknownError)))
  }

  function FetchPending(s: OrdersState): (r: OrdersState)
    ensures r.isFetching && r.fetchError.None? && r.orders == s.orders
    ensures SamePlaceFields(r, s)
  {
    s.(isFetching := true, fetchError := None)
  }

  function FetchFulfilled(s: OrdersState, rows: seq<OrderDetailRow>): (r: OrdersState)
    ensures !r.isFetching && r.orders == rows && r.fetchError == s.fetchError
    ensures SamePlaceFields(r, s)
  {
    s.(isFetching := false, orders := rows)
  }

  function FetchRejected(s: OrdersState, payload: Option<string>): (r: OrdersState)
    ensures !r.isFetching && r.fetchError == Some(payload.GetOr(UnknownError)) && r.orders == s.orders
    ensures SamePlaceFields(r, s)
  {
    s.(isFetching := false, fetchError := Some(payload.GetOr(UnknownError)))
  }

  /** `clearOrderState`: the placement fields return to their initial
      values; the report is kept. */
  function ClearOrderState(s: OrdersState): (r: OrdersState)
    ensures SamePlaceFields(r, InitialOrders)
    ensures SameFetchFields(r, s)
  {
    s.(isPlacing := false, placedOrderId := None, placedUserId := None, placeError := None)
  }

  datatype OrdersAction =
    | PlaceStarted
    | PlaceSucceeded(response: CreateOrderResponse)
    | PlaceFailed(payload: Option<string>)
    | FetchStarted
    | FetchSucceeded(rows: seq<OrderDetailRow>)
    | FetchFailed(payload: Option<string>)
    | ClearPlacement

  predicate IsPlaceAction(a: OrdersAction) {
    a.PlaceStarted? || a.PlaceSucceeded? || a.PlaceFailed? || a.ClearPlacement?
  }

  function Reduce(s: OrdersState, a: OrdersAction): OrdersState {
    match a
    case PlaceStarted => PlacePending(s)
    case PlaceSucceeded(resp) => PlaceFulfilled(s, resp)
    case PlaceFailed(p) => PlaceRejected(s, p)
    case FetchStarted => FetchPending(s)
    case FetchSucceeded(rows) => FetchFulfilled(s, rows)
    case FetchFailed(p) => FetchRejected(s, p)
    case ClearPlacement => ClearOrderState(s)
  }

  /** The action a settled `placeOrder` dispatches. */
  function PlaceSettledAction(r: Settled<CreateOrderResponse>): OrdersAction {
    match r
    case Fulfilled(resp) => PlaceSucceeded(resp)
    case Rejected(p) => PlaceFailed(p)
  }

  /** The action a settled `fetchOrders` dispatches. */
  function FetchSettledAction(r: Settled<seq<OrderDetailRow>>): OrdersAction {
    match r
    case Fulfilled(rows) => FetchSucceeded(rows)
    case Rejected(p) => FetchFailed(p)
  }

  // ---------------------------------------------------------------------
  // Lemmas
  // ---------------------------------------------------------------------

  /** Placement and report bookkeeping are independent: an action of one
      kind commutes with an action of the other. */
  lemma PlaceAndFetchCommute(s: OrdersState, a: OrdersAction, b: OrdersAction)
    requires IsPlaceAction(a) && !IsPlaceAction(b)
    ensures Reduce(Reduce(s, a), b) == Reduce(Reduce(s, b), a)
  {
  }

  /** A whole `placeOrder` run, pending then settled: placement is over,
      and either the response's ids are recorded with no error, or the
      error is the thrown message (or the fallback). */
  lemma PlaceOrderRun(s: OrdersState, call: Outcome<CreateOrderResponse>)
    ensures var r := Reduce(PlacePending(s), PlaceSettledAction(PlaceOrderThunk(call)));
      !r.isPlacing && SameFetchFields(r, s)
    ensures call.Returned? ==>
      var r := Reduce(PlacePending(s), PlaceSettledAction(PlaceOrderThunk(call)));
      r.placedOrderId == Some(call.value.orderId) && r.placedUserId == Some(call.value.userId) && r.placeError.None?
    ensures call.Threw? ==>
      var r := Reduce(PlacePending(s), PlaceSettledAction(PlaceOrderThunk(call)));
      r.placeError == Some(RejectionMessage(call.thrown, PlaceOrderFallback)) && r.placedOrderId == s.placedOrderId
  {
  }

  /** A whole `fetchOrders` run: the rows replace the report wholesale, or
      the old rows stay and the error is recorded. */
  lemma FetchOrdersRun(s: OrdersState, call: Outcome<seq<OrderDetailRow>>)
    ensures var r := Reduce(FetchPending(s), FetchSettledAction(FetchOrdersThunk(call)));
      !r.isFetching && SamePlaceFields(r, s)
    ensures call.Returned? ==>
      var r := Reduce(FetchPending(s), FetchSettledAction(FetchOrdersThunk(call)));
      r.orders == call.value && r.fetchError.None?
    ensures call.Threw? ==>
      var r := Reduce(FetchPending(s), FetchSettledAction(FetchOrdersThunk(call)));
      r.orders == s.orders && r.fetchError == Some(RejectionMessage(call.thrown, FetchOrdersFallback))
  {
  }
}

=== FILE: product_service.dfy ===
/**
 * Catalogue queries (services/productService.ts). The static product list
 * is a parameter `all`; the simulated network delay is not modelled.
 */
module ProductService {
  import opened Wrappers
  import opened Types
  import opened Text
  import Seqs

  const FeaturedLimit := 6
  const DefaultRelatedLimit := 4

  function InCategory(category: string): Product -> bool {
    (p: Product) => p.category == category
  }

  /** `getProducts`: an absent, empty or `All` category returns the whole
      list; any other returns that category's products in list order. */
  function GetProducts(all: seq<Product>, category: Option<string>): (r: seq<Product>)
    ensures OrElse(category, "All") == "All" ==> r == all
    ensures forall p :: p in r <==> p in all && (OrElse(category, "All") == "All" || p.category == category.value)
    ensures Seqs.IsSubsequence(r, all)
  {
    if OrElse(category, "All") == "All" then
      Seqs.PrefixIsSubsequence(all, |all|);
      all
    else
      var r := Seqs.Filter(all, InCategory(category.value));
      Seqs.FilterIsSubsequence(all, InCategory(category.value));
      assert forall p :: p in all && p.category == category.value ==> p in r by {
        forall p | p in all && p.category == category.value
          ensures p in r
        {
          var i :| 0 <= i < |all| && all[i] == p;
          assert InCategory(category.value)(all[i]);
        }
      }
      r
  }

  function HasProductId(id: string): Product -> bool {
    (p: Product) => p.id == id
  }

  /** `getProductById`: the first product with the id, or `null`. */
  function GetProductById(all: seq<Product>, id: string): (r: Option<Product>)
    ensures r.None? <==> forall i :: 0 <= i < |all| ==> all[i].id != id
    ensures r.Some? ==> r.value.id == id
    ensures r.Some? ==> exists i :: 0 <= i < |all| && all[i] == r.value && forall j :: 0 <= j < i ==> all[j].id != id
  {
    var i := Seqs.IndexOf(all, HasProductId(id));
    if i < |all| then Some(all[i]) else None
  }

  function IsBestseller(p: Product): bool {
    p.badge == Some(Bestseller)
  }

  /** `getFeaturedProducts`: the first six bestsellers. */
  function GetFeaturedProducts(all: seq<Product>): (r: seq<Product>)
    ensures |r| <= FeaturedLimit
    ensures forall i :: 0 <= i < |r| ==> r[i].badge == Some(Bestseller)
    ensures Seqs.IsSubsequence(r, all)
    ensures var best := Seqs.Filter(all, IsBestseller);
      |r| == (if |best| < FeaturedLimit then |best| else FeaturedLimit) && r == best[..|r|]
  {
    var best := Seqs.Filter(all, IsBestseller);
    Seqs.FilterIsSubsequence(all, IsBestseller);
    Seqs.PrefixIsSubsequence(best, FeaturedLimit);
    Seqs.SubsequenceTransitive(Seqs.Take(best, FeaturedLimit), best, all);
    Seqs.Take(best, FeaturedLimit)
  }

  function IsRelated(productId: string, category: string): Product -> bool {
    (p: Product) => p.category == category && p.id != productId
  }

  /** `getRelatedProducts`: the other products of the category, cut by
      `slice(0, limit)` with `limit` defaulting to 4 (a negative limit
      counts back from the end). */
  function GetRelatedProducts(all: seq<Product>, productId: string, category: string, limit: Option<int>): (r: seq<Product>)
    ensures forall i :: 0 <= i < |r| ==> r[i].category == category && r[i].id != productId
    ensures 0 <= limit.GetOr(DefaultRelatedLimit) ==> |r| <= limit.GetOr(DefaultRelatedLimit)
    ensures Seqs.IsSubsequence(r, all)
    ensures var related := Seqs.Filter(all, IsRelated(productId, category));
      var n := limit.GetOr(DefaultRelatedLimit);
      |r| == (if 0 <= n then (if n < |related| then n else |related|)
              else if |related| + n <= 0 then 0 else |related| + n) &&
      r == related[..|r|]
  {
    var related := Seqs.Filter(all, IsRelated(productId, category));
    var r := Seqs.SliceTo(related, limit.GetOr(DefaultRelatedLimit));
    Seqs.FilterIsSubsequence(all, IsRelated(productId, category));
    Seqs.PrefixIsSubsequence(related, |r|);
    assert Seqs.Take(related, |r|) == r;
    Seqs.SubsequenceTransitive(r, related, all);
    r
  }

  /** Some tag of the product contains the (lower-cased) query. */
  predicate SomeTagContains(tags: seq<string>, lowerQuery: string) {
    exists i :: 0 <= i < |tags| && Contains(ToLower(tags[i]), lowerQuery)
  }

  /** The search condition of `searchProducts` for one product. */
  predicate Matches(p: Product, query: string) {
    var q := ToLower(query);
    Contains(ToLower(p.name), q) || Contains(ToLower(p.brand), q) || SomeTagContains(p.tags, q)
  }

  function MatchesQuery(query: string): Product -> bool {
    (p: Product) => Matches(p, query)
  }

  /** `searchProducts`: the products whose name, brand or some tag contains
      the query, ignoring case, in list order. */
  function SearchProducts(all: seq<Product>, query: string): (r: seq<Product>)
    ensures forall i :: 0 <= i < |r| ==> Matches(r[i], query)
    ensures forall i :: 0 <= i < |all| && Matches(all[i], query) ==> all[i] in r
    ensures Seqs.IsSubsequence(r, all)
  {
    Seqs.FilterIsSubsequence(all, MatchesQuery(query));
    Seqs.Filter(all, MatchesQuery(query))
  }

  // ---------------------------------------------------------------------
  // Lemmas
  // ---------------------------------------------------------------------

  /** A named category keeps every product of that category as often as
      the list holds it, and no other product. */
  lemma CategoryCounts(all: seq<Product>, category: string)
    requires category != "" && category != "All"
    ensures forall p ::
      multiset(GetProducts(all, Some(category)))[p] == if p.category == category then multiset(all)[p] else 0
  {
    Seqs.FilterMultiset(all, InCategory(category));
  }

  /** The search keeps every matching product as often as the list holds
      it, and no other product. */
  lemma SearchCounts(all: seq<Product>, query: string)
    ensures forall p :: multiset(SearchProducts(all, query))[p] == if Matches(p, query) then multiset(all)[p] else 0
  {
    Seqs.FilterMultiset(all, MatchesQuery(query));
  }

  /** The empty query keeps every product. */
  lemma EmptySearchKeepsAll(all: seq<Product>)
    ensures SearchProducts(all, "") == all
  {
    forall i | 0 <= i < |all|
      ensures MatchesQuery("")(all[i])
    {
      assert ToLower("") == "";
      ContainsEmpty(ToLower(all[i].name));
    }
    Seqs.FilterKeepsAll(all, MatchesQuery(""));
  }

  /** Searching is case-insensitive: queries that lower-case alike give
      the same results. */
  lemma SearchIgnoresCase(all: seq<Product>, q1: string, q2: string)
    requires ToLower(q1) == ToLower(q2)
    ensures SearchProducts(all, q1) == SearchProducts(all, q2)
  {
    Seqs.FilterCongruent(all, MatchesQuery(q1), MatchesQuery(q2));
  }

  /** A bestseller preceded by fewer than six bestsellers is featured:
      with the length and prefix clauses of `GetFeaturedProducts`, the
      featured list is exactly the first six bestsellers. */
  lemma EarlyBestsellerIsFeatured(all: seq<Product>, i: nat)
    requires i < |all| && IsBestseller(all[i])
    requires |Seqs.Filter(all[..i], IsBestseller)| < FeaturedLimit
    ensures all[i] in GetFeaturedProducts(all)
  {
    Seqs.FilterRank(all, IsBestseller, i);
    var k := |Seqs.Filter(all[..i], IsBestseller)|;
    assert GetFeaturedProducts(all)[k] == all[i];
  }

  /** A related product with fewer related products before it than the
      result holds is in the result: the result is never a sample, always
      the leading run of the related products. */
  lemma EarlyRelatedIsListed(all: seq<Product>, productId: string, category: string, limit: Option<int>, i: nat)
    requires i < |all| && all[i].category == category && all[i].id != productId
    requires |Seqs.Filter(all[..i], IsRelated(productId, category))| < |GetRelatedProducts(all, productId, category, limit)|
    ensures all[i] in GetRelatedProducts(all, productId, category, limit)
  {
    Seqs.FilterRank(all, IsRelated(productId, category), i);
    var k := |Seqs.Filter(all[..i], IsRelated(productId, category))|;
    assert GetRelatedProducts(all, productId, category, limit)[k] == all[i];
  }

  /** Looking a product up by id within its own category finds the same
      product as looking it up in the whole list: the category page and the
      product page agree. */
  lemma FindByIdInCategory(all: seq<Product>, id: string, category: string)
    requires category != "" && category != "All"
    requires GetProductById(all, id).Some? && GetProductById(all, id).value.category == category
    ensures GetProductById(GetProducts(all, Some(category)), id) == GetProductById(all, id)
  {
    var inCategory := Seqs.Filter(all, InCategory(category));
    assert Seqs.Find(all, HasProductId(id)) == GetProductById(all, id);
    Seqs.FindThroughFilter(all, InCategory(category), HasProductId(id));
    assert Seqs.Find(inCategory, HasProductId(id)) == GetProductById(inCategory, id);
  }
}

=== FILE: seqs.dfy ===
/**
 * Sequence operations that the storefront performs through JavaScript's
 * array methods: `filter`, `findIndex`/`find`, `reduce` with `+`, `slice`.
 */
module Seqs {
  import opened Wrappers

  /** `s.filter(keep)`: the elements of `s` that satisfy `keep`, in order. */
  function Filter<T>(s: seq<T>, keep: T -> bool): (r: seq<T>)
    ensures |r| <= |s|
    ensures forall i :: 0 <= i < |r| ==> keep(r[i]) && r[i] in s
    ensures forall i :: 0 <= i < |s| && keep(s[i]) ==> s[i] in r
  {
    if |s| == 0 then []
    else if keep(s[0]) then [s[0]] + Filter(s[1..], keep)
    else Filter(s[1..], keep)
  }

  /** `s.findIndex(p)`, with "not found" reported as `|s|` instead of -1. */
  function IndexOf<T>(s: seq<T>, p: T -> bool): (i: nat)
    ensures i <= |s|
    ensures i < |s| ==> p(s[i])
    ensures forall j :: 0 <= j < i ==> !p(s[j])
  {
    if |s| == 0 then 0
    else if p(s[0]) then 0
    else 1 + IndexOf(s[1..], p)
  }

  /** `s.find(p)`: the first element satisfying `p`, if any. */
  function Find<T>(s: seq<T>, p: T -> bool): (r: Option<T>)
    ensures r.Some? <==> exists i :: 0 <= i < |s| && p(s[i])
    ensures r.Some? ==> p(r.value) && r.value == s[IndexOf(s, p)]
  {
    var i := IndexOf(s, p);
    if i < |s| then Some(s[i]) else None
  }

  /** `find` looks at the head first and at the tail only past it. */
  lemma FindStep<T>(s: seq<T>, p: T -> bool)
    requires |s| > 0
    ensures Find(s, p) == if p(s[0]) then Some(s[0]) else Find(s[1..], p)
  {
    if !p(s[0]) {
      assert IndexOf(s, p) == 1 + IndexOf(s[1..], p);
    }
  }

  /** `s.reduce((sum, x) => sum + f(x), 0)`. Integer addition is associative,
      so folding from the front gives the same sum as the left fold. */
  function SumOf<T>(s: seq<T>, f: T -> int): int
  {
    if |s| == 0 then 0 else f(s[0]) + SumOf(s[1..], f)
  }

  /** `s.slice(0, n)` for `n >= 0`, and `String.prototype.substring(0, n)`
      (which treats a negative `n` as 0). */
  function Take<T>(s: seq<T>, n: int): (r: seq<T>)
    ensures |r| == if n <= 0 then 0 else if n < |s| then n else |s|
    ensures r == s[..|r|]
  {
    if n <= 0 then [] else if n < |s| then s[..n] else s
  }

  /** `s.slice(0, end)`: a negative `end` counts back from the end of `s`. */
  function SliceTo<T>(s: seq<T>, end: int): (r: seq<T>)
    ensures 0 <= end ==> r == Take(s, end)
    ensures end < 0 ==> |r| == if |s| + end <= 0 then 0 else |s| + end
    ensures r == s[..|r|]
  {
    if end >= 0 then Take(s, end)
    else if |s| + end <= 0 then []
    else s[..|s| + end]
  }

  /** `a` can be obtained from `b` by deleting elements: order is kept. */
  predicate IsSubsequence<T(==)>(a: seq<T>, b: seq<T>)
    decreases |b|
  {
    if |a| == 0 then true
    else if |b| == 0 then false
    else if a[0] == b[0] then IsSubsequence(a[1..], b[1..])
    else IsSubsequence(a, b[1..])
  }

  /** The set of distinct elements (`new Set(s)`). */
  function Elements<T(==)>(s: seq<T>): set<T>
  {
    set x | x in s
  }

  // ---------------------------------------------------------------------
  // Lemmas
  // ---------------------------------------------------------------------

  lemma {:induction false} FilterKeepsAll<T>(s: seq<T>, keep: T -> bool)
    requires forall i :: 0 <= i < |s| ==> keep(s[i])
    ensures Filter(s, keep) == s
  {
    if |s| > 0 {
      FilterKeepsAll(s[1..], keep);
    }
  }

  lemma {:induction false} FilterAppend<T>(a: seq<T>, b: seq<T>, keep: T -> bool)
    ensures Filter(a + b, keep) == Filter(a, keep) + Filter(b, keep)
  {
    if |a| > 0 {
      assert (a + b)[1..] == a[1..] + b;
      FilterAppend(a[1..], b, keep);
    } else {
      assert a + b == b;
    }
  }

  lemma {:induction false} FilterIsSubsequence<T>(s: seq<T>, keep: T -> bool)
    ensures IsSubsequence(Filter(s, keep), s)
  {
    if |s| > 0 {
      FilterIsSubsequence(s[1..], keep);
      var r := Filter(s, keep);
      if !keep(s[0]) && |r| > 0 {
        assert r[0] in r;
        assert r[0] != s[0];
      }
    }
  }

  /** `filter` keeps every occurrence of a kept element and none of the
      others. */
  lemma {:induction false} FilterMultiset<T>(s: seq<T>, keep: T -> bool)
    ensures forall x :: multiset(Filter(s, keep))[x] == if keep(x) then multiset(s)[x] else 0
  {
    if |s| > 0 {
      FilterMultiset(s[1..], keep);
      assert s == [s[0]] + s[1..];
      if keep(s[0]) {
        assert Filter(s, keep) == [s[0]] + Filter(s[1..], keep);
      }
    }
  }

  /** `find` gives the same element after a `filter` that keeps it. */
  lemma {:induction false} FindThroughFilter<T>(s: seq<T>, keep: T -> bool, p: T -> bool)
    requires Find(s, p).Some? && keep(Find(s, p).value)
    ensures Find(Filter(s, keep), p) == Find(s, p)
  {
    FindStep(s, p);
    var f := Filter(s, keep);
    if keep(s[0]) {
      assert f == [s[0]] + Filter(s[1..], keep);
      assert f[1..] == Filter(s[1..], keep);
      FindStep(f, p);
      if !p(s[0]) {
        FindThroughFilter(s[1..], keep, p);
      }
    } else {
      FindThroughFilter(s[1..], keep, p);
    }
  }

  /** A kept element's place in the filtered sequence is the number of
      kept elements before it. */
  lemma FilterRank<T>(s: seq<T>, keep: T -> bool, i: nat)
    requires i < |s| && keep(s[i])
    ensures |Filter(s[..i], keep)| < |Filter(s, keep)|
    ensures Filter(s, keep)[|Filter(s[..i], keep)|] == s[i]
  {
    var rest := s[i..];
    assert s == s[..i] + rest;
    FilterAppend(s[..i], rest, keep);
    assert rest[0] == s[i];
    assert Filter(rest, keep) == [s[i]] + Filter(rest[1..], keep);
  }

  lemma {:induction false} SumOfAppend<T>(a: seq<T>, b: seq<T>, f: T -> int)
    ensures SumOf(a + b, f) == SumOf(a, f) + SumOf(b, f)
  {
    if |a| > 0 {
      assert (a + b)[1..] == a[1..] + b;
      SumOfAppend(a[1..], b, f);
    } else {
      assert a + b == b;
    }
  }

  lemma {:induction false} SumOfUpdate<T>(s: seq<T>, i: nat, x: T, f: T -> int)
    requires i < |s|
    ensures SumOf(s[i := x], f) == SumOf(s, f) - f(s[i]) + f(x)
  {
    if i > 0 {
      assert s[i := x][1..] == s[1..][i - 1 := x];
      SumOfUpdate(s[1..], i - 1, x, f);
    }
  }

  lemma {:induction false} SumOfNonNegative<T>(s: seq<T>, f: T -> int)
    requires forall i :: 0 <= i < |s| ==> f(s[i]) >= 0
    ensures SumOf(s, f) >= 0
  {
    if |s| > 0 {
      SumOfNonNegative(s[1..], f);
    }
  }

  /** A sequence has at most as many distinct elements as it has elements. */
  lemma {:induction false} ElementsBound<T>(s: seq<T>)
    ensures |Elements(s)| <= |s|
    ensures |s| > 0 ==> |Elements(s)| >= 1
  {
    if |s| > 0 {
      ElementsBound(s[1..]);
      assert Elements(s) == {s[0]} + Elements(s[1..]);
      assert s[0] in Elements(s);
    }
  }

  /** A prefix is a subsequence. */
  lemma {:induction false} PrefixIsSubsequence<T>(s: seq<T>, n: int)
    ensures IsSubsequence(Take(s, n), s)
  {
    if n > 0 && |s| > 0 {
      PrefixIsSubsequence(s[1..], n - 1);
      assert Take(s, n) == [s[0]] + Take(s[1..], n - 1);
    }
  }

  /** Dropping the first element keeps a subsequence a subsequence. */
  lemma {:induction false} SubsequenceTail<T>(a: seq<T>, b: seq<T>)
    requires |a| > 0 && IsSubsequence(a, b)
    ensures IsSubsequence(a[1..], b)
    decreases |b|, 1
  {
    if a[0] == b[0] {
      SubsequenceCons(a[1..], b);
    } else {
      SubsequenceTail(a, b[1..]);
      SubsequenceCons(a[1..], b);
    }
  }

  /** A subsequence of the tail is a subsequence of the whole. */
  lemma {:induction false} SubsequenceCons<T>(x: seq<T>, b: seq<T>)
    requires |b| > 0 && IsSubsequence(x, b[1..])
    ensures IsSubsequence(x, b)
    decreases |b|, 0
  {
    if |x| > 0 && x[0] == b[0] {
      SubsequenceTail(x, b[1..]);
    }
  }

  lemma {:induction false} SubsequenceTransitive<T>(a: seq<T>, b: seq<T>, c: seq<T>)
    requires IsSubsequence(a, b) && IsSubsequence(b, c)
    ensures IsSubsequence(a, c)
    decreases |c|
  {
    if |a| > 0 {
      if b[0] == c[0] {
        if a[0] == b[0] {
          SubsequenceTransitive(a[1..], b[1..], c[1..]);
        } else {
          SubsequenceTransitive(a, b[1..], c[1..]);
          SubsequenceCons(a, c);
        }
      } else {
        SubsequenceTransitive(a, b, c[1..]);
        SubsequenceCons(a, c);
      }
    }
  }

  /** Filtering only depends on the predicate's answers on the elements. */
  lemma {:induction false} FilterCongruent<T>(s: seq<T>, f: T -> bool, g: T -> bool)
    requires forall i :: 0 <= i < |s| ==> f(s[i]) == g(s[i])
    ensures Filter(s, f) == Filter(s, g)
  {
    if |s| > 0 {
      FilterCongruent(s[1..], f, g);
    }
  }
}

=== FILE: text.dfy ===
/**
 * Character classes and the JavaScript string operations the storefront
 * uses: the regular-expression classes `[a-zA-Z]`, `\d` and `\s`,
 * `toLowerCase`, `includes`, `startsWith`, `trimEnd`, and the two
 * `replace` calls made on customer identifiers.
 */
module Text {
  import opened Wrappers
  import Seqs

  predicate IsAsciiLetter(c: char) {
    ('a' <= c <= 'z') || ('A' <= c <= 'Z')
  }

  /** The regular-expression class `\d` (and `[0-9]`). */
  predicate IsDigit(c: char) {
    '0' <= c <= '9'
  }

  /** The class `[a-zA-Z0-9]`. */
  predicate IsAsciiAlnum(c: char) {
    IsAsciiLetter(c) || IsDigit(c)
  }

  /** The class `\s`: ECMAScript WhiteSpace and LineTerminator code points.
      `trimEnd` and `parseInt` strip exactly the same set. */
  predicate IsWhitespace(c: char) {
    var n := c as int;
    (0x09 <= n <= 0x0D) || n == 0x20 || n == 0xA0 || n == 0x1680
    || (0x2000 <= n <= 0x200A) || n == 0x2028 || n == 0x2029
    || n == 0x202F || n == 0x205F || n == 0x3000 || n == 0xFEFF
  }

  /** Lower-casing of one character; only ASCII capitals change. */
  function ToLowerChar(c: char): (d: char)
    ensures IsAsciiLetter(c) <==> IsAsciiLetter(d)
    ensures IsAsciiAlnum(c) <==> IsAsciiAlnum(d)
    ensures IsWhitespace(c) <==> IsWhitespace(d)
    ensures !('A' <= d <= 'Z')
    ensures !('A' <= c <= 'Z') ==> d == c
  {
    if 'A' <= c <= 'Z' then (c as int + 32) as char else c
  }

  /** `s.toLowerCase()`, restricted to ASCII case mapping. */
  function ToLower(s: string): (r: string)
    ensures |r| == |s|
    ensures forall i :: 0 <= i < |s| ==> r[i] == ToLowerChar(s[i])
  {
    seq(|s|, i requires 0 <= i < |s| => ToLowerChar(s[i]))
  }

  /** `s.startsWith(prefix)`. */
  predicate StartsWith(s: string, prefix: string) {
    |prefix| <= |s| && s[..|prefix|] == prefix
  }

  /** `s.endsWith(suffix)`. */
  predicate EndsWith(s: string, suffix: string) {
    |suffix| <= |s| && s[|s| - |suffix|..] == suffix
  }

  /** `hay.includes(needle)`: `needle` occurs at some offset of `hay`. */
  predicate Contains(hay: string, needle: string)
    decreases |hay|
  {
    StartsWith(hay, needle) || (|hay| > 0 && Contains(hay[1..], needle))
  }

  /** `s.trimEnd()`. */
  function TrimEnd(s: string): (r: string)
    ensures |r| <= |s| && r == s[..|r|]
    ensures |r| == 0 || !IsWhitespace(r[|r| - 1])
    ensures forall i :: |r| <= i < |s| ==> IsWhitespace(s[i])
  {
    if |s| > 0 && IsWhitespace(s[|s| - 1]) then TrimEnd(s[..|s| - 1]) else s
  }

  /** Strips a leading run of whitespace (the start of `parseInt`, and the
      run that `\s+` matches). */
  function DropLeadingWhitespace(s: string): (r: string)
    ensures |r| <= |s| && r == s[|s| - |r|..]
    ensures |r| == 0 || !IsWhitespace(r[0])
    ensures forall i :: 0 <= i < |s| - |r| ==> IsWhitespace(s[i])
  {
    if |s| > 0 && IsWhitespace(s[0]) then DropLeadingWhitespace(s[1..]) else s
  }

  /** `s.replace(/[^a-zA-Z0-9]/g, '')`. */
  function KeepAlnum(s: string): (r: string)
    ensures |r| <= |s|
    ensures forall i :: 0 <= i < |r| ==> IsAsciiAlnum(r[i])
  {
    Seqs.Filter(s, IsAsciiAlnum)
  }

  /** `KeepAlnum` drops exactly the characters outside `[a-zA-Z0-9]`: the
      result is in the input's order and holds every letter and digit as
      often as the input does. */
  lemma KeepAlnumContents(s: string)
    ensures Seqs.IsSubsequence(KeepAlnum(s), s)
    ensures forall c :: multiset(KeepAlnum(s))[c] == if IsAsciiAlnum(c) then multiset(s)[c] else 0
  {
    Seqs.FilterIsSubsequence(s, IsAsciiAlnum);
    Seqs.FilterMultiset(s, IsAsciiAlnum);
  }

  /** The characters of `s` that are not whitespace, in order. */
  function RemoveWhitespace(s: string): (r: string)
    ensures forall i :: 0 <= i < |r| ==> !IsWhitespace(r[i])
  {
    Seqs.Filter(s, (c: char) => !IsWhitespace(c))
  }

  /** `s.replace(/\s+/g, rep)`: every maximal run of whitespace becomes `rep`. */
  function CollapseWhitespace(s: string, rep: string): string
    decreases |s|
  {
    if |s| == 0 then ""
    else if IsWhitespace(s[0]) then rep + CollapseWhitespace(DropLeadingWhitespace(s[1..]), rep)
    else [s[0]] + CollapseWhitespace(s[1..], rep)
  }

  /** `value || fallback` for an optional string: `undefined` and `""` are
      both falsy. */
  function OrElse(value: Option<string>, fallback: string): (r: string)
    ensures r == fallback || (value.Some? && r == value.value && r != "")
    ensures value.Some? && value.value != "" ==> r == value.value
  {
    if value.Some? && value.value != "" then value.value else fallback
  }

  // ---------------------------------------------------------------------
  // Lemmas
  // ---------------------------------------------------------------------

  /** Every string contains the empty string (`"abc".includes("")`). */
  lemma ContainsEmpty(s: string)
    ensures Contains(s, "")
  {
    assert StartsWith(s, "");
  }

  lemma ToLowerAppend(a: string, b: string)
    ensures ToLower(a + b) == ToLower(a) + ToLower(b)
  {
  }

  /** Lower-casing and dropping non-alphanumerics commute. */
  lemma {:induction false} KeepAlnumToLower(s: string)
    ensures KeepAlnum(ToLower(s)) == ToLower(KeepAlnum(s))
  {
    if |s| > 0 {
      var c, t := s[0], s[1..];
      var lower := ToLower(s);
      assert lower[0] == ToLowerChar(c);
      assert lower[1..] == ToLower(t);
      KeepAlnumToLower(t);
      assert KeepAlnum(lower) == (if IsAsciiAlnum(ToLowerChar(c)) then [ToLowerChar(c)] else []) + KeepAlnum(ToLower(t));
      assert KeepAlnum(s) == (if IsAsciiAlnum(c) then [c] else []) + KeepAlnum(t);
      ToLowerAppend(if IsAsciiAlnum(c) then [c] else [], KeepAlnum(t));
    }
  }

  /** Dropping a leading whitespace run does not change `KeepAlnum`. */
  lemma {:induction false} KeepAlnumDropLeading(t: string)
    ensures KeepAlnum(DropLeadingWhitespace(t)) == KeepAlnum(t)
  {
    if |t| > 0 && IsWhitespace(t[0]) {
      KeepAlnumDropLeading(t[1..]);
      KeepAlnumSkipFirst(t);
    }
  }

  /** `KeepAlnum` distributes over a leading character. */
  lemma KeepAlnumCons(c: char, t: string)
    ensures KeepAlnum([c] + t) == KeepAlnum([c]) + KeepAlnum(t)
  {
    Seqs.FilterAppend([c], t, IsAsciiAlnum);
  }

  /** Collapsing whitespace runs into `_` is invisible once non-alphanumerics
      are dropped: both `_` and whitespace are removed anyway. */
  lemma {:induction false} KeepAlnumCollapse(s: string)
    ensures KeepAlnum(CollapseWhitespace(s, "_")) == KeepAlnum(s)
    decreases |s|, 1
  {
    if |s| > 0 {
      if IsWhitespace(s[0]) {
        KeepAlnumCollapseRun(s);
      } else {
        var t := s[1..];
        assert s == [s[0]] + t;
        assert CollapseWhitespace(s, "_") == [s[0]] + CollapseWhitespace(t, "_");
        KeepAlnumCollapse(t);
        KeepAlnumCons(s[0], t);
        KeepAlnumCons(s[0], CollapseWhitespace(t, "_"));
      }
    }
  }

  /** The case of `KeepAlnumCollapse` where `s` starts with whitespace. */
  lemma {:induction false} KeepAlnumCollapseRun(s: string)
    requires |s| > 0 && IsWhitespace(s[0])
    ensures KeepAlnum(CollapseWhitespace(s, "_")) == KeepAlnum(s)
    decreases |s|, 0
  {
    var u := DropLeadingWhitespace(s[1..]);
    var collapsed := CollapseWhitespace(u, "_");
    calc {
      KeepAlnum(CollapseWhitespace(s, "_"));
      { CollapseRun(s); }
      KeepAlnum(['_'] + collapsed);
      { KeepAlnumSkip('_', collapsed); }
      KeepAlnum(collapsed);
      { KeepAlnumCollapse(u); }
      KeepAlnum(u);
      { KeepAlnumDropLeading(s[1..]); }
      KeepAlnum(s[1..]);
      { KeepAlnumSkipFirst(s); }
      KeepAlnum(s);
    }
  }

  /** A whitespace run at the front collapses to one `_`. */
  lemma CollapseRun(s: string)
    requires |s| > 0 && IsWhitespace(s[0])
    ensures CollapseWhitespace(s, "_") == ['_'] + CollapseWhitespace(DropLeadingWhitespace(s[1..]), "_")
  {
  }

  /** A first character outside `[a-zA-Z0-9]` is dropped. */
  lemma KeepAlnumSkipFirst(s: string)
    requires |s| > 0 && !IsAsciiAlnum(s[0])
    ensures KeepAlnum(s) == KeepAlnum(s[1..])
  {
  }

  /** A leading character outside `[a-zA-Z0-9]` is dropped. */
  lemma KeepAlnumSkip(c: char, t: string)
    requires !IsAsciiAlnum(c)
    ensures KeepAlnum([c] + t) == KeepAlnum(t)
  {
    assert ([c] + t)[1..] == t;
  }

  /** On a string of letters and whitespace, dropping non-alphanumerics is
      the same as dropping whitespace. */
  lemma {:induction false} KeepAlnumOfLettersAndSpaces(s: string)
    requires forall i :: 0 <= i < |s| ==> IsAsciiLetter(s[i]) || IsWhitespace(s[i])
    ensures KeepAlnum(s) == RemoveWhitespace(s)
  {
    if |s| > 0 {
      KeepAlnumOfLettersAndSpaces(s[1..]);
    }
  }
}

=== FILE: types.dfy ===
/**
 * The storefront's record shapes: products, cart lines, saved addresses,
 * the client-side order projection, and the remote order API's request,
 * response and report rows. Prices, amounts and quantities are integers
 * (whole rupees); the shapes carry no behaviour.
 */
module Types {
  import opened Wrappers

  datatype Badge = Bestseller | New | Sale | Limited

  /** A catalogue entry; only the fields some operation reads are kept. */
  datatype Product = Product(
    id: string,
    name: string,
    brand: string,
    price: int,
    category: string,
    stock: int,
    tags: seq<string>,
    badge: Option<Badge>)

  datatype CartItem = CartItem(product: Product, quantity: int)

  datatype AddressType = Home | Work | Other

  /** A saved delivery address. An absent `isDefault` flag is falsy
      everywhere it is read and is written `false` here. */
  datatype Address = Address(
    id: string,
    fullName: string,
    phone: string,
    addressLine: string,
    city: string,
    state: string,
    pincode: string,
    kind: AddressType,
    isDefault: bool)

  datatype PaymentMethod = Upi | Card | Cod

  datatype PaymentStatus = PaymentPending | PaymentSuccess | PaymentFailed

  datatype OrderStatus = Placed | Confirmed | Shipped | Delivered

  /** The client-side record of a placed order. */
  datatype Order = Order(
    orderId: string,
    items: seq<CartItem>,
    address: Address,
    totalAmount: int,
    deliveryCharge: int,
    discount: int,
    paymentMethod: PaymentMethod,
    paymentStatus: PaymentStatus,
    status: OrderStatus,
    createdAt: string)

  datatype CheckoutStep = CartStep | AddressStep | PaymentStep | SuccessStep

  datatype OrderItemRequest = OrderItemRequest(productId: int, quantity: int, price: int)

  /** Body of the remote order-creation call. */
  datatype CreateOrderRequest = CreateOrderRequest(
    phone: string,
    fullName: string,
    addressLine: string,
    city: string,
    state: string,
    pincode: string,
    deliveryCharge: int,
    paymentMethod: PaymentMethod,
    items: seq<OrderItemRequest>)

  datatype CreateOrderResponse = CreateOrderResponse(message: string, orderId: int, userId: int)

  /** One row of the order report: one product line of one order. */
  datatype OrderDetailRow = OrderDetailRow(
    orderId: int,
    customerName: string,
    contactNumber: string,
    fullAddress: string,
    paymentMethod: string,
    orderedDate: string,
    productName: string,
    quantity: int,
    price: int,
    totalBill: int)

  /** What a failed call threw: an `Error` object, whose `message` is
      read, or any other value. */
  datatype Thrown = ErrorObject(message: string) | NonErrorValue

  /** The settled result of an awaited call. */
  datatype Outcome<T> = Returned(value: T) | Threw(thrown: Thrown)
}

=== FILE: ui_slice.dfy ===
/**
 * Checkout UI state (features/ui/uiSlice.ts): a loading flag, the current
 * checkout step and the order shown after success.
 */
module UiSlice {
  import opened Wrappers
  import opened Types

  datatype UiState = UiState(isLoading: bool, checkoutStep: CheckoutStep, currentOrder: Option<Order>)

  /** Not loading, on the cart step, no order. */
  const InitialUi := UiState(false, CartStep, None)

  function SetLoading(s: UiState, loading: bool): (r: UiState)
    ensures r.isLoading == loading
    ensures r.checkoutStep == s.checkoutStep && r.currentOrder == s.currentOrder
  {
    s.(isLoading := loading)
  }

  function SetCheckoutStep(s: UiState, step: CheckoutStep): (r: UiState)
    ensures r.checkoutStep == step
    ensures r.isLoading == s.isLoading && r.currentOrder == s.currentOrder
  {
    s.(checkoutStep := step)
  }

  function SetCurrentOrder(s: UiState, order: Option<Order>): (r: UiState)
    ensures r.currentOrder == order
    ensures r.isLoading == s.isLoading && r.checkoutStep == s.checkoutStep
  {
    s.(currentOrder := order)
  }

  /** `resetCheckout`: back to the cart step with no order; the loading
      flag is left alone. */
  function ResetCheckout(s: UiState): (r: UiState)
    ensures r.checkoutStep == CartStep && r.currentOrder.None?
    ensures r.isLoading == s.isLoading
  {
    s.(checkoutStep := CartStep, currentOrder := None)
  }

  datatype UiAction =
    | Loading(loading: bool)
    | Step(step: CheckoutStep)
    | CurrentOrder(order: Option<Order>)
    | Reset

  function Reduce(s: UiState, a: UiAction): UiState {
    match a
    case Loading(b) => SetLoading(s, b)
    case Step(step) => SetCheckoutStep(s, step)
    case CurrentOrder(o) => SetCurrentOrder(s, o)
    case Reset => ResetCheckout(s)
  }

  // ---------------------------------------------------------------------
  // Lemmas
  // ---------------------------------------------------------------------

  /** `resetCheckout` returns to the initial state except for the loading
      flag, and a second reset changes nothing. */
  lemma ResetIsInitialButLoading(s: UiState)
    ensures ResetCheckout(s) == InitialUi.(isLoading := s.isLoading)
    ensures ResetCheckout(ResetCheckout(s)) == ResetCheckout(s)
  {
  }

  /** The loading flag is independent of every other action: setting it
      commutes with them. */
  lemma LoadingCommutes(s: UiState, loading: bool, a: UiAction)
    requires !a.Loading?
    ensures Reduce(SetLoading(s, loading), a) == SetLoading(Reduce(s, a), loading)
  {
  }
}

=== FILE: use_address.dfy ===
/**
 * The address hook (hooks/useAddress.ts): the selected-address lookup and
 * one handler per slice action.
 */
module UseAddress {
  import opened Wrappers
  import opened Types
  import opened AddressSlice
  import Seqs

  /** `selectedAddress`: the first address whose id equals the selection;
      `undefined` (`None`) when nothing is selected or no address has it. */
  function SelectedAddress(s: AddressState): (r: Option<Address>)
    ensures r.None? <==> s.selectedId.None? || !HasAddress(s.addresses, s.selectedId.value)
    ensures r.Some? ==> Some(r.value.id) == s.selectedId
    ensures r.Some? ==> r.value == s.addresses[AddressIndex(s.addresses, r.value.id)]
  {
    if s.selectedId.None? then None
    else Seqs.Find(s.addresses, HasId(s.selectedId.value))
  }

  function HandleAddAddress(s: AddressState, entry: Address, newId: string): (r: AddressState)
    ensures r == AddAddress(s, entry, newId)
  {
    Reduce(s, Add(entry, newId))
  }

  function HandleEditAddress(s: AddressState, a: Address): (r: AddressState)
    ensures r == EditAddress(s, a)
  {
    Reduce(s, Edit(a))
  }

  function HandleDeleteAddress(s: AddressState, id: string): (r: AddressState)
    ensures r == DeleteAddress(s, id)
  {
    Reduce(s, Delete(id))
  }

  function HandleSelectAddress(s: AddressState, id: string): (r: AddressState)
    ensures r == SelectAddress(s, id)
  {
    Reduce(s, Select(id))
  }

  function HandleSetDefault(s: AddressState, id: string): (r: AddressState)
    ensures r == SetDefaultAddress(s, id)
  {
    Reduce(s, SetDefault(id))
  }

  // ---------------------------------------------------------------------
  // Lemmas
  // ---------------------------------------------------------------------

  /** Deleting the selected address leaves the first remaining address
      selected, or nothing when the book is empty. */
  lemma SelectedAfterDeletingSelected(s: AddressState, id: string)
    requires s.selectedId == Some(id)
    ensures var r := DeleteAddress(s, id);
      SelectedAddress(r) == if |r.addresses| > 0 then Some(r.addresses[0]) else None
  {
    var r := DeleteAddress(s, id);
    if |r.addresses| > 0 {
      assert AddressIndex(r.addresses, r.addresses[0].id) == 0;
    }
  }

  /** Deleting some other address leaves the selected address as it was. */
  lemma SelectedAfterDeletingOther(s: AddressState, id: string)
    requires s.selectedId != Some(id)
    ensures SelectedAddress(DeleteAddress(s, id)) == SelectedAddress(s)
  {
    var r := DeleteAddress(s, id);
    if s.selectedId.Some? {
      FirstMatchSurvivesFilter(s.addresses, s.selectedId.value, id);
    }
  }

  /** Filtering out `other` keeps the first address with id `sel` first. */
  lemma {:induction false} FirstMatchSurvivesFilter(addresses: seq<Address>, sel: string, other: string)
    requires sel != other
    ensures var kept := Seqs.Filter(addresses, HasOtherId(other));
      Seqs.Find(kept, HasId(sel)) == Seqs.Find(addresses, HasId(sel))
  {
    if |addresses| > 0 {
      FirstMatchSurvivesFilter(addresses[1..], sel, other);
      var h := addresses[0];
      var rest := Seqs.Filter(addresses[1..], HasOtherId(other));
      Seqs.FindStep(addresses, HasId(sel));
      if h.id != other {
        var kept := [h] + rest;
        assert Seqs.Filter(addresses, HasOtherId(other)) == kept;
        assert kept[1..] == rest;
        Seqs.FindStep(kept, HasId(sel));
      }
    }
  }

  /** Saving the first address into an empty book with a valid selection
      makes it the selected address. */
  lemma SelectedAfterFirstAdd(s: AddressState, entry: Address, newId: string)
    requires |s.addresses| == 0 && SelectionValid(s)
    ensures SelectedAddress(AddAddress(s, entry, newId)) == Some(entry.(id := newId, isDefault := true))
  {
    AddToEmptyBook(s, entry, newId);
    var r := AddAddress(s, entry, newId);
    assert AddressIndex(r.addresses, newId) == 0;
  }
}

=== FILE: use_cart.dfy ===
/**
 * The cart hook (hooks/useCart.ts): two queries over the lines and
 * handlers that dispatch the slice's actions. The toasts the handlers
 * show are not modelled.
 */
module UseCart {
  import opened Types
  import opened CartSlice

  /** `isInCart(id)`: some line is for product `id`. */
  predicate IsInCart(items: seq<CartItem>, id: string) {
    exists j :: 0 <= j < |items| && items[j].product.id == id
  }

  /** `getQuantityInCart(id)`: the quantity of the first line for `id`, or 0. */
  function QuantityInCart(items: seq<CartItem>, id: string): (q: int)
    ensures !IsInCart(items, id) ==> q == 0
    ensures IsInCart(items, id) ==>
      exists j :: 0 <= j < |items| && items[j].product.id == id && q == items[j].quantity
                  && forall k :: 0 <= k < j ==> items[k].product.id != id
  {
    var i := LineIndex(items, id);
    if i < |items| then items[i].quantity else 0
  }

  /** `handleAddToCart(product)` dispatches `addToCart(product)`. */
  function HandleAddToCart(s: CartState, p: Product): (r: CartState)
    ensures r == AddToCart(s, p)
  {
    Reduce(s, AddItem(p))
  }

  /** `handleRemoveFromCart(id, name)` dispatches `removeFromCart(id)`; the
      name only feeds the toast. */
  function HandleRemoveFromCart(s: CartState, id: string, name: string): (r: CartState)
    ensures r == RemoveFromCart(s, id)
  {
    Reduce(s, RemoveItem(id))
  }

  /** `handleUpdateQuantity(id, q)` forwards both arguments unchanged. */
  function HandleUpdateQuantity(s: CartState, id: string, quantity: int): (r: CartState)
    ensures r == UpdateQuantity(s, id, quantity)
  {
    Reduce(s, SetQuantity(id, quantity))
  }

  /** `handleClearCart()` dispatches `clearCart()`. */
  function HandleClearCart(s: CartState): (r: CartState)
    ensures r == ClearCart(s)
  {
    Reduce(s, Clear)
  }

  // ---------------------------------------------------------------------
  // Lemmas
  // ---------------------------------------------------------------------

  /** `isInCart` and `findIndex` agree. */
  lemma IsInCartIffFound(items: seq<CartItem>, id: string)
    ensures IsInCart(items, id) <==> LineIndex(items, id) < |items|
  {
  }

  /** Under the cart invariant a positive quantity means the product is in
      the cart, and conversely. */
  lemma QuantityPositiveIffInCart(items: seq<CartItem>, id: string)
    requires Valid(items)
    ensures QuantityInCart(items, id) > 0 <==> IsInCart(items, id)
  {
    IsInCartIffFound(items, id);
  }

  /** Adding a product raises its quantity in the cart by exactly one. */
  lemma QuantityAfterAdd(s: CartState, p: Product)
    ensures QuantityInCart(AddToCart(s, p).items, p.id) == QuantityInCart(s.items, p.id) + 1
  {
    var r := AddToCart(s, p).items;
    var i := LineIndex(s.items, p.id);
    IsInCartIffFound(s.items, p.id);
    if i < |s.items| {
      assert LineIndex(r, p.id) == i by {
        LineIndexAt(r, p.id, i);
      }
    } else {
      assert LineIndex(r, p.id) == |s.items| by {
        LineIndexAt(r, p.id, |s.items|);
      }
    }
  }

  /** The first line for `id` is at `i` when it is there and no earlier line
      is for `id`. */
  lemma LineIndexAt(items: seq<CartItem>, id: string, i: nat)
    requires i < |items| && items[i].product.id == id
    requires forall j :: 0 <= j < i ==> items[j].product.id != id
    ensures LineIndex(items, id) == i
  {
    var k := LineIndex(items, id);
    if k < i {
      assert items[k].product.id == id;
    }
  }

  /** After `removeFromCart(id)` the product is not in the cart. */
  lemma NotInCartAfterRemove(s: CartState, id: string)
    ensures !IsInCart(RemoveFromCart(s, id).items, id)
    ensures QuantityInCart(RemoveFromCart(s, id).items, id) == 0
  {
  }

  /** After `updateQuantity(id, q)` on a product in the cart, its quantity
      is `q` when `q > 0`, and it is gone when `q <= 0`. */
  lemma QuantityAfterUpdate(s: CartState, id: string, quantity: int)
    requires IsInCart(s.items, id)
    ensures quantity > 0 ==> QuantityInCart(UpdateQuantity(s, id, quantity).items, id) == quantity
    ensures quantity <= 0 ==> !IsInCart(UpdateQuantity(s, id, quantity).items, id)
  {
    IsInCartIffFound(s.items, id);
    var i := LineIndex(s.items, id);
    if quantity > 0 {
      LineIndexAt(UpdateQuantity(s, id, quantity).items, id, i);
    }
  }

  /** A cleared cart holds no product. */
  lemma EmptyAfterClear(s: CartState, id: string)
    ensures !IsInCart(ClearCart(s).items, id) && QuantityInCart(ClearCart(s).items, id) == 0
  {
  }
}

=== FILE: validators.dfy ===
/**
 * The address form schema (utils/validators.ts), one predicate per field,
 * and the list of states offered by the form's drop-down.
 */
module Validators {
  import opened Wrappers
  import opened Text
  import opened Types

  /** The pattern `^[a-zA-Z\s]+$` without its non-emptiness. */
  predicate LettersAndSpaces(s: string) {
    forall i :: 0 <= i < |s| ==> IsAsciiLetter(s[i]) || IsWhitespace(s[i])
  }

  predicate ValidFullName(s: string) {
    3 <= |s| <= 50 && LettersAndSpaces(s)
  }

  /** `^[6-9]\d{9}$`. */
  predicate ValidPhone(s: string) {
    |s| == 10 && '6' <= s[0] <= '9' && forall i :: 1 <= i < 10 ==> IsDigit(s[i])
  }

  predicate ValidAddressLine(s: string) {
    10 <= |s| <= 200
  }

  predicate ValidCity(s: string) {
    2 <= |s| <= 50 && LettersAndSpaces(s)
  }

  /** Only non-emptiness: the list of states is not part of the schema. */
  predicate ValidState(s: string) {
    |s| >= 1
  }

  /** `^[1-9][0-9]{5}$`. */
  predicate ValidPincode(s: string) {
    |s| == 6 && '1' <= s[0] <= '9' && forall i :: 1 <= i < 6 ==> IsDigit(s[i])
  }

  /** `z.enum(['Home', 'Work', 'Other']).default('Home')`. */
  function ParseAddressType(t: Option<string>): (r: Option<AddressType>)
    ensures t.None? ==> r == Some(Home)
    ensures t.Some? ==> (r.Some? <==> t.value in ["Home", "Work", "Other"])
  {
    match t
    case None => Some(Home)
    case Some(name) =>
      if name == "Home" then Some(Home)
      else if name == "Work" then Some(Work)
      else if name == "Other" then Some(Other)
      else None
  }

  /** The raw form input; `kind` is absent when the form sends no type. */
  datatype AddressForm = AddressForm(
    fullName: string,
    phone: string,
    addressLine: string,
    city: string,
    state: string,
    pincode: string,
    kind: Option<string>)

  /** The schema's output (`AddressFormValues`). */
  datatype AddressFormValues = AddressFormValues(
    fullName: string,
    phone: string,
    addressLine: string,
    city: string,
    state: string,
    pincode: string,
    kind: AddressType)

  datatype Field = FullName | Phone | AddressLine | City | State | Pincode | Kind

  predicate FieldOk(form: AddressForm, f: Field) {
    match f
    case FullName => ValidFullName(form.fullName)
    case Phone => ValidPhone(form.phone)
    case AddressLine => ValidAddressLine(form.addressLine)
    case City => ValidCity(form.city)
    case State => ValidState(form.state)
    case Pincode => ValidPincode(form.pincode)
    case Kind => ParseAddressType(form.kind).Some?
  }

  datatype Validation = Accepted(values: AddressFormValues) | Rejected(fields: set<Field>)

  const AllFields: set<Field> := {FullName, Phone, AddressLine, City, State, Pincode, Kind}

  /** `AllFields` lists every field. */
  lemma FieldsComplete()
    ensures forall f: Field :: f in AllFields
  {
    forall f: Field ensures f in AllFields {
      match f
      case FullName =>
      case Phone =>
      case AddressLine =>
      case City =>
      case State =>
      case Pincode =>
      case Kind =>
    }
  }

  /** The fields that fail their rule. */
  function FailingFields(form: AddressForm): (bad: set<Field>)
    ensures forall f: Field :: f in bad <==> !FieldOk(form, f)
  {
    FieldsComplete();
    set f | f in AllFields && !FieldOk(form, f)
  }

  /** The schema's `safeParse`: the values when every field passes,
      otherwise the set of offending fields. */
  function Validate(form: AddressForm): (r: Validation)
    ensures r.Accepted? <==> forall f: Field :: FieldOk(form, f)
    ensures r.Rejected? ==> forall f: Field :: f in r.fields <==> !FieldOk(form, f)
    ensures r.Accepted? ==> ParseAddressType(form.kind).Some? && r.values == AddressFormValues(form.fullName,
      form.phone, form.addressLine, form.city, form.state, form.pincode, ParseAddressType(form.kind).value)
  {
    var bad := FailingFields(form);
    if bad == {} then
      assert FieldOk(form, Kind);
      Accepted(AddressFormValues(form.fullName, form.phone, form.addressLine,
        form.city, form.state, form.pincode, ParseAddressType(form.kind).value))
    else
      Rejected(bad)
  }

  const IndianStates: seq<string> := [
    "Andhra Pradesh", "Arunachal Pradesh", "Assam", "Bihar", "Chhattisgarh",
    "Goa", "Gujarat", "Haryana", "Himachal Pradesh", "Jharkhand", "Karnataka",
    "Kerala", "Madhya Pradesh", "Maharashtra", "Manipur", "Meghalaya", "Mizoram",
    "Nagaland", "Odisha", "Punjab", "Rajasthan", "Sikkim", "Tamil Nadu",
    "Telangana", "Tripura", "Uttar Pradesh", "Uttarakhand", "West Bengal",
    "Andaman and Nicobar Islands", "Chandigarh", "Dadra and Nagar Haveli",
    "Daman and Diu", "Delhi", "Jammu and Kashmir", "Ladakh", "Lakshadweep",
    "Puducherry"
  ]

  // ---------------------------------------------------------------------
  // Lemmas
  // ---------------------------------------------------------------------

  /** A name holding a digit anywhere is rejected, "John3" for one. */
  lemma NameWithDigitRejected(s: string, i: int)
    requires 0 <= i < |s| && IsDigit(s[i])
    ensures !ValidFullName(s)
    ensures !ValidFullName("John3")
  {
    assert !IsAsciiLetter(s[i]) && !IsWhitespace(s[i]);
    assert "John3"[4] == '3';
    assert !IsAsciiLetter('3') && !IsWhitespace('3');
  }

  /** A mobile number starting with 0 to 5 is rejected, whatever follows;
      5123456789 fails where 9123456789 passes. */
  lemma PhoneLeadingFiveRejected(s: string)
    requires |s| > 0 && '0' <= s[0] <= '5'
    ensures !ValidPhone(s)
    ensures !ValidPhone("5123456789")
    ensures ValidPhone("9123456789")
  {
  }

  /** A PIN code starting with 0 is rejected, whatever follows; 012345
      fails where 110001 passes. */
  lemma PincodeLeadingZeroRejected(s: string)
    requires |s| > 0 && s[0] == '0'
    ensures !ValidPincode(s)
    ensures !ValidPincode("012345")
    ensures ValidPincode("110001")
  {
  }

  /** Any non-empty state passes, listed or not. */
  lemma StateListNotEnforced()
    ensures ValidState("Atlantis") && "Atlantis" !in IndianStates
  {
  }

  /** The name pattern admits a name made only of spaces. */
  lemma BlankNameAccepted()
    ensures ValidFullName("   ")
  {
    assert IsWhitespace(' ');
  }

  /** The form's default type is Home, and the validated form keeps it. */
  lemma MissingTypeDefaultsToHome(form: AddressForm)
    requires form.kind.None?
    requires forall f: Field :: f != Kind ==> FieldOk(form, f)
    ensures Validate(form).Accepted? && Validate(form).values.kind == Home
  {
    assert FieldOk(form, Kind);
  }
}

=== FILE: wrappers.dfy ===
/** Optional values: the model's stand-in for `null` / `undefined`. */
module Wrappers {

  datatype Option<+T> = None | Some(value: T) {

    /** The value, or `default` when there is none (JavaScript's `??`). */
    function GetOr(default: T): T {
      match this
      case Some(v) => v
      case None => default
    }
  }
}
